=== FILE: README.md ===
# Product catalog core, modelled in Dafny

This project models the logic of a small Next.js e-commerce catalog. Each
page or handler below becomes pure functions over an immutable list of
`Product` records, and its properties are proved.

- **Storefront search list.** The category buttons, the category-and-query
  filter, 8-item pages and the page controls.
- **Inventory dashboard.** The newest-first table, the stock cards, the
  total inventory value, the per-category breakdown and the row badges.
- **Recommendations page.** Products grouped by category, and the two
  best-stocked products of each group.
- **Product creation handler.** The shared-secret check, the next id, the
  defaults and the derived slug, and the append to the store.
- **Admin panel's list.** Its filter, its category dropdown, and how it
  folds create and update replies into the list.
- **Wishlist button.** The toggle of an id in the stored list, and the
  button's own flag.

## Modules

| file | module | contents |
|---|---|---|
| `seqs.dfy` | `Seqs` | Order-preserving `Filter` with its algebra, left-fold `Sum`, first-appearance `Distinct`, and `Array.prototype.slice` |
| `text.dfy` | `Text` | ASCII lower-casing, whitespace trimming, substring search, the `/\s+/g` to `-` replacement, and code-point string order with sorted de-duplication |
| `sort.dfy` | `StableSort` | The stable descending sort by an integer key that `sort((a, b) => key(b) - key(a))` performs, and its uniqueness |
| `objects.dfy` | `Objects` | A JavaScript object used as a dictionary and filled by `reduce`, as an insertion-ordered association list |
| `catalog.dfy` | `Catalog` | The `Product` record and the per-product predicates shared by the views |
| `storefront.dfy` | `Storefront` | `SearchableProductList` |
| `dashboard.dfy` | `Dashboard` | The dashboard page |
| `recommendations.dfy` | `Recommendations` | The recommendations page |
| `products_api.dfy` | `ProductsApi` | The POST handler of the product collection route |
| `admin.dfy` | `Admin` | The admin page's list logic |
| `wishlist.dfy` | `Wishlist` | `WishlistButton` |

### Modelling choices

- **Ids and numbers.** Product ids are natural numbers: the store keeps
  them as decimal strings, and the handler maps them through `Number` and
  takes `Math.max`.
  Prices and inventories are integers. `lastUpdated` is the millisecond
  timestamp that `new Date(...).getTime()` would yield.
- **Current time.** The handler's `now` is a parameter.
- **Request body.** An absent field of the JSON body is `None`. A numeric
  field holds the number `Number(...)` already produced.
- **Object key order.** Objects filled by `reduce` keep their keys in order
  of first assignment. The model keeps them as a sequence of entries.
- **Inherited names.** A `{}` literal inherits `constructor`, `toString`
  and the other `Object.prototype` members, so a category with such a name
  breaks both `reduce` groupings (see Findings). The breakdown and the
  groups the rest of the model uses are the corrected ones, built on a
  dictionary with no inherited names. `Dashboard.ByCategoryAsWritten` and
  `Recommendations.GroupByCategoryAsWritten` model the pages as written.
- **String sort.** `Array.prototype.sort` without a comparator compares
  strings by UTF-16 code units. The model orders them lexicographically as
  `seq<char>`, by code point; the two orders agree inside the Basic
  Multilingual Plane.
- **Category sentinels.** The storefront and the admin panel differ here.
  The storefront turns category filtering off only with the `"all"`
  button. The admin panel turns it off only with the empty dropdown value.
  The model follows the code: `Admin.AdminAgreesWithStorefront`
  proves the two filters agree once each uses its own sentinel, when the
  search text has no surrounding whitespace. The admin search is not
  trimmed, so with surrounding whitespace they can differ:
  `Admin.BlankSearchDiffers` gives a one-space search that the storefront
  ignores and the admin panel does not.
- **Wishlist flag.** The button negates its own flag on each click. It does
  not re-read the store. `Wishlist.ClickKeepsFlagInSync` and
  `Wishlist.ClickKeepsStaleFlagStale` state both consequences.

## Model

| member | source | states |
|---|---|---|
| `Storefront.CategoryButtons` | app/components/SearchableProductList.tsx:27-30 | The buttons are "all" followed by every category of the catalog exactly once, in ascending order |
| `Storefront.FilterProducts` | app/components/SearchableProductList.tsx:33-53 | The two-stage filter (category unless "all", then the trimmed lowercased query if non-empty) equals one order-preserving filter by `Listed`; the result is a subsequence of the catalog; a product is listed iff it is in the catalog and passes both tests; "all" with a blank query lists the whole catalog |
| `Storefront.QueryIgnoresCase` | app/components/SearchableProductList.tsx:42-49 | Queries that lowercase to the same text list the same products |
| `Text.Trim` | app/components/SearchableProductList.tsx:42 | `trim()` removes whitespace from both ends only: the result starts and ends with a non-space and sits in the input between two all-whitespace margins |
| `Text.LowerTrim` | app/components/SearchableProductList.tsx:42 | Trimming and lowercasing commute |
| `Text.ContainsIffOccurs` | app/components/SearchableProductList.tsx:46-48 | `includes(q)` holds exactly when `q` occurs at some position, so the empty query is found in every text |
| `Text.SortedDistinct` | app/components/SearchableProductList.tsx:28-29 | De-duplicating and sorting gives a strictly ascending list with exactly the input's values |
| `Text.AscendingUnique` | app/components/SearchableProductList.tsx:28-29 | Only one strictly ascending list holds a given set of values, so the sorted category list is determined by the categories alone |
| `Seqs.Slice` | app/components/SearchableProductList.tsx:60 | `slice(start, end)` with non-negative bounds is the clamped sub-range, never longer than `end - start` |
| `Text.Lower` | app/components/SearchableProductList.tsx:42-48 | `toLowerCase()` maps each character on its own and keeps the length; `Storefront.QueryIgnoresCase` states its effect on the search |
| `Text.Contains` | app/components/SearchableProductList.tsx:46-48 | `includes`, characterised by `Text.ContainsIffOccurs` |
| `Catalog.MatchesQuery` | app/components/SearchableProductList.tsx:45-49 | A product matches when its name, category or description contains the query; `Storefront.FilterProducts` and `Admin.AdminFilter` state what it selects |
| `Storefront.Listed` | app/components/SearchableProductList.tsx:33-53 | The storefront's per-product test, proved equal to the two-stage filter by `Storefront.FilterProducts` |
| `Storefront.TotalPages` | app/components/SearchableProductList.tsx:56 | The page count is the ceiling of n/8: enough pages for every item, never a wholly empty last page, and zero pages exactly when nothing is listed |
| `Storefront.PageItems` | app/components/SearchableProductList.tsx:57-61 | A page holds at most 8 items; pages past the last are empty; every page from 1 to the page count is non-empty |
| `Storefront.PagesThroughPrefix` | app/components/SearchableProductList.tsx:57-61 | Pages 1..k concatenated are the first min(8k, n) listed items |
| `Storefront.PagesReassemble` | app/components/SearchableProductList.tsx:56-61 | Pages 1..totalPages concatenated give back the filtered list exactly, with no gap or overlap |
| `Storefront.PrevPage` | app/components/SearchableProductList.tsx:130 | "Previous" goes one page back but never below page 1 |
| `Storefront.NextPage` | app/components/SearchableProductList.tsx:154 | "Next" goes one page forward from before the last page and stays on the last page from there on |
| `Storefront.SetQuery` | app/components/SearchableProductList.tsx:64-66 | Changing the query sends the list back to page 1; keeping it changes nothing |
| `Storefront.SetCategory` | app/components/SearchableProductList.tsx:64-66 | Changing the category sends the list back to page 1; keeping it changes nothing |
| `Storefront.ClickPrev` | app/components/SearchableProductList.tsx:127-135 | The control exists only with more than one page; it goes one page back from above page 1 and stays on page 1 from page 1, and keeps the query and the category |
| `Storefront.ClickNext` | app/components/SearchableProductList.tsx:153-159 | The control exists only with more than one page; it goes one page forward from a page before the last and stays on the last page |
| `Storefront.ClickPage` | app/components/SearchableProductList.tsx:138-141 | The numbered buttons exist only with more than one page; each selects a page that exists; the query and the category are kept |
| `Storefront.BrowseKeepsPageInRange` | app/components/SearchableProductList.tsx:22-66 | Every control, from the initial state on, keeps the current page at 1 or within the existing pages |
| `Storefront.InRangePageNotEmpty` | app/components/SearchableProductList.tsx:56-61 | While the page is in range, a non-empty result never shows an empty page |
| `Storefront.ToolSearchScenario` | app/components/SearchableProductList.tsx:42-49 | Searching "tool" lists a product of category "tools" whose name does not contain the word |
| `Dashboard.NewestFirst` | app/dashboard/page.tsx:22-25 | The table is a permutation of the stored list, ordered by non-increasing `lastUpdated`, with equal timestamps kept in stored order |
| `StableSort.SortedUnique` | app/dashboard/page.tsx:22-25 | A list ordered by key with a given order among equal keys is unique, so the table is the only stable newest-first order |
| `StableSort.SortDesc` | app/dashboard/page.tsx:22-25 | The comparator sort on one integer key yields a non-increasing list of the same length; `StableSort.SortDescPermutes`, `StableSort.SortDescStable` and `StableSort.SortedUnique` pin it down |
| `StableSort.SortDescPermutes` | app/dashboard/page.tsx:22-25 | The descending sort by a key only reorders its input |
| `StableSort.SortDescStable` | app/dashboard/page.tsx:22-25 | The sort keeps elements with equal keys in input order, as ECMAScript requires of `Array.prototype.sort` |
| `Dashboard.Cards` | app/dashboard/page.tsx:26-32 | The Low, Medium and High cards partition the products (as multisets and in count); the out-of-stock alert is a subsequence of the Low list |
| `Dashboard.CardsDisjoint` | app/dashboard/page.tsx:27-32 | No product is on two stock cards; every out-of-stock product is also on the Low card |
| `Dashboard.StatusBadge` | app/dashboard/page.tsx:249-265 | The badge is Out exactly at 0, Low for other values up to 5, Med for 6..20 and High above 20 |
| `Dashboard.BadgeMatchesCards` | app/dashboard/page.tsx:249-265 | Each row's badge agrees with the card it is counted on |
| `Dashboard.TotalValueIgnoresOrder` | app/dashboard/page.tsx:34-37 | The total value of the sorted table equals that of the stored list; it is 0 for an empty store |
| `Dashboard.TotalValue` | app/dashboard/page.tsx:34-37 | The sum of price times inventory; `Dashboard.TotalValueIgnoresOrder` and `Dashboard.ByCategoryReconciles` relate it to the stored list and to the rows |
| `Seqs.SumPermutation` | app/dashboard/page.tsx:34-37 | A sum over a list does not depend on the order of its elements |
| `Dashboard.ByCategory` | app/dashboard/page.tsx:40-48 | The corrected breakdown reduce, characterised by `Dashboard.ByCategorySummarizes` |
| `Dashboard.ByCategorySummarizes` | app/dashboard/page.tsx:40-48 | The breakdown has one row per category in order of first appearance, and each row's count, stock and value are those of exactly that category's products |
| `Seqs.Distinct` | app/dashboard/page.tsx:40-48 | The keys of a dictionary (no inherited names) filled by `reduce`: every value once, in order of first appearance |
| `Objects.UpsertKeys` | app/dashboard/page.tsx:41-43 | On a dictionary with no inherited names, creating an entry on first use adds the key last; a key already present keeps its place |
| `Objects.UpsertValues` | app/dashboard/page.tsx:41-46 | On a dictionary with no inherited names, one reduce step changes only the entry for its key, by exactly one update |
| `Dashboard.TallySummarizes` | app/dashboard/page.tsx:41-46 | One step of the reduce keeps the breakdown exact |
| `Dashboard.ByCategoryReconciles` | app/dashboard/page.tsx:34-48 | The rows' counts add up to the number of products, their stock to the total units and their values to the total value |
| `Dashboard.ByCategoryAsWrittenSkips` | app/dashboard/page.tsx:40-48 | On the `{}` accumulator the breakdown is exactly that of the products whose category is not an inherited `Object.prototype` name |
| `Dashboard.ByCategoryAsWrittenCounts` | app/dashboard/page.tsx:40-48 | As written, the row counts add up to the number of products of non-inherited categories only, and the page agrees with the corrected breakdown when no category is inherited |
| `Dashboard.ConstructorRowMissing` | app/dashboard/page.tsx:41-43 | One product of category "constructor" gets a row in the corrected breakdown and none on the page as written |
| `Dashboard.Render` | app/dashboard/page.tsx:20-48 | The table is a reordering of the stored list; the cards are those of the table, with the stored list's count, and the Low, Out-of-stock, Medium and High lists hold exactly the stored products of their band; the total value and the breakdown's count, stock and value sums agree with the stored list; the breakdown's keys are exactly the catalog's categories |
| `Recommendations.GroupByCategory` | app/recommendations/page.tsx:12-16 | The corrected grouping reduce, characterised by `Recommendations.GroupByCategoryGroups` and `Recommendations.GroupsPermute` |
| `Recommendations.GroupByCategoryAsWrittenFails` | app/recommendations/page.tsx:12-16 | On the `{}` accumulator the grouping throws exactly when some category is an inherited `Object.prototype` name, and otherwise equals the corrected grouping |
| `Recommendations.ToStringCategoryThrows` | app/recommendations/page.tsx:13-14 | One product of category "toString" is grouped by the corrected reduce and makes the page as written throw |
| `Recommendations.GroupByCategoryGroups` | app/recommendations/page.tsx:12-16 | Grouping yields one group per category in order of first appearance, holding exactly that category's products in catalog order |
| `Recommendations.PushGrouped` | app/recommendations/page.tsx:13-14 | One step of the grouping reduce keeps the groups exact |
| `Recommendations.GroupsPermute` | app/recommendations/page.tsx:12-16 | The groups laid end to end are a permutation of the catalog |
| `Recommendations.TopByInventory` | app/recommendations/page.tsx:21-23 | The picks are the first min(2, n) products of the stable descending sort by inventory |
| `Recommendations.TopByInventoryTaken` | app/recommendations/page.tsx:21-23 | There are min(2, n) picks, drawn from the group, best-stocked first |
| `Recommendations.TopByInventoryBest` | app/recommendations/page.tsx:21-23 | No product left out of the picks has more stock than any pick |
| `Recommendations.TopByInventoryStable` | app/recommendations/page.tsx:21-23 | Among equal stock, the picks are the earliest products of the group |
| `Recommendations.Recommend` | app/recommendations/page.tsx:19-24 | Each group's picks under the group's key, characterised by `Recommendations.RecommendCovers` |
| `Recommendations.RecommendCovers` | app/recommendations/page.tsx:19-24 | Every category appears once, in order of first appearance, with one or two picks, all from the catalog and of that category |
| `ProductsApi.Authorized` | app/api/products/route.ts:22-23 | The guard of the handler, characterised by `ProductsApi.KeyGuard` |
| `ProductsApi.KeyGuard` | app/api/products/route.ts:22-23 | With no key configured, or an empty one, every request is refused; otherwise exactly the requests whose header equals the key get through |
| `ProductsApi.Post` | app/api/products/route.ts:21-50 | Without the secret the response is Unauthorized and the store is unchanged; with it, the record built from the request body (`ProductsApi.NewProduct`) is returned and appended, and its id is new |
| `ProductsApi.Status` | app/api/products/route.ts:24-26 | A created record is answered with 201 and a refusal with 401 |
| `ProductsApi.MaxId` | app/api/products/route.ts:33 | `Math.max(0, ...ids)`: at least every id, and either 0 or one of the ids |
| `ProductsApi.NextId` | app/api/products/route.ts:32-34 | The next id is one more than the largest stored id: it exceeds every stored id, is one more than some stored id, and is 1 for an empty store |
| `ProductsApi.TextOr` | app/api/products/route.ts:38-42 | `x \|\| fallback`: an absent or empty string falls back |
| `ProductsApi.NumberOr0` | app/api/products/route.ts:41-43 | An absent number becomes 0 |
| `ProductsApi.Slugify` | app/api/products/route.ts:39 | A derived slug contains no whitespace and no upper-case letter |
| `Text.HyphenateKeepsLower` | app/api/products/route.ts:39 | Replacing whitespace runs keeps lowercase text lowercase |
| `ProductsApi.GadgetSlug` | app/api/products/route.ts:39 | The name "Gadget" gives the slug "gadget" |
| `ProductsApi.NewProduct` | app/api/products/route.ts:36-45 | Every field of the new record, with its default: empty name and description, "uncategorized" category, zero price and stock, the supplied slug or the one derived from the name, the request time |
| `ProductsApi.PostKeepsIdsUnique` | app/api/products/route.ts:32-47 | A create never introduces a duplicate id |
| `ProductsApi.PostTwice` | app/api/products/route.ts:32-34 | Two successful creates in a row receive consecutive ids |
| `ProductsApi.GadgetScenario` | app/api/products/route.ts:22-45 | With a one-product store, a create without the secret is refused; with it, "Gadget" gets id 2, slug "gadget" and zero stock |
| `Text.Hyphenate` | app/api/products/route.ts:39 | `replace(/\s+/g, "-")`: the result has no whitespace and is no longer than the input; `Text.HyphenateJoin` and `Text.HyphenateWord` characterise it |
| `Text.HyphenateJoin` | app/api/products/route.ts:39 | The replacement turns each maximal whitespace run into exactly one hyphen |
| `Text.HyphenateWord` | app/api/products/route.ts:39 | A name without whitespace keeps its lowercased spelling as the slug |
| `Admin.AdminFilter` | app/admin/page.tsx:100-107 | The admin list is a subsequence of the loaded products, and a product is on it iff it matches the lowercased (untrimmed) search and the category filter |
| `Admin.AdminListed` | app/admin/page.tsx:100-107 | The admin panel's per-product test, whose selection `Admin.AdminFilter` states |
| `Admin.AdminFilterShowsAll` | app/admin/page.tsx:100-107 | An empty search with no category lists every product |
| `Admin.AdminAgreesWithStorefront` | app/admin/page.tsx:100-107 | For an already-trimmed search the admin list equals the storefront list, with the empty filter in the role of "all" |
| `Admin.BlankSearchDiffers` | app/admin/page.tsx:100-107 | A whitespace-only search hides a product with no spaces from the admin list, while the storefront trims it away and shows that product |
| `Admin.AdminCategories` | app/admin/page.tsx:110-112 | Every category once, in ascending order |
| `Admin.AdminCategoriesMatchButtons` | app/admin/page.tsx:110-112 | The dropdown lists exactly the storefront's category buttons after "all" |
| `Admin.AfterCreate` | app/admin/page.tsx:62-69 | A created record goes in front of the list; a failed request leaves the list alone |
| `Admin.CreateKeepsMirror` | app/admin/page.tsx:68-69 | After a create, the panel's list is a reordering of the server's store |
| `Admin.ReplaceById` | app/admin/page.tsx:96 | Exactly the records with the given id are replaced; the length is kept |
| `Admin.AfterUpdate` | app/admin/page.tsx:91-96 | A failed update leaves the list alone |
| `Admin.ReplaceByIdProperties` | app/admin/page.tsx:96 | Replacing is idempotent, an unknown id changes nothing, and a reply with the same id keeps every id in place |
| `Admin.ReplaceByIdSwapsOne` | app/admin/page.tsx:96 | With unique ids an update swaps exactly one record |
| `Wishlist.Toggle` | app/recommendations/WishlistButton.tsx:16-23 | A saved id loses every copy, while the remaining ids keep their order and number of copies; an unsaved id is appended after the unchanged list |
| `Wishlist.ToggleFlips` | app/recommendations/WishlistButton.tsx:18-21 | Toggling flips whether the id is saved and leaves every other id, and its number of copies, unchanged |
| `Wishlist.ToggleTwiceFromAbsent` | app/recommendations/WishlistButton.tsx:18-21 | Saving and then removing restores the stored list |
| `Wishlist.ToggleTwiceFromPresent` | app/recommendations/WishlistButton.tsx:18-21 | Removing and then saving moves the id to the end and drops its duplicates |
| `Wishlist.Mount` | app/recommendations/WishlistButton.tsx:7-12 | On mount the flag shows whether the id is stored |
| `Wishlist.Click` | app/recommendations/WishlistButton.tsx:14-26 | A click toggles the stored list and negates the flag it had |
| `Wishlist.ClickKeepsFlagInSync` | app/recommendations/WishlistButton.tsx:14-26 | A flag that agrees with the store keeps agreeing after a click |
| `Wishlist.ClickKeepsStaleFlagStale` | app/recommendations/WishlistButton.tsx:24 | A flag that disagrees with the store stays wrong after a click, because the flag is negated and not re-read |

## Left out

- File and JSON I/O (`readData`, `writeData`, `JSON.parse`) are left out. Every operation takes the store as a value and returns the new one.
- The 500 response of the POST handler is left out. It answers storage and parse errors, and also the `TypeError` raised when the body is `null` (reading `body.name`, route.ts:38), or while deriving the slug when `name` is truthy but not a string and no `slug` is given (route.ts:39). `ProductsApi.CreateInput` holds only strings and integers, so the model assumes a well-typed body and none of these cases can arise.
- `NextResponse`, the headers object and `req.json()` are left out. Responses are the `ProductsApi.Response` datatype.
- The GET handler is left out. It returns the store unchanged.
- React state, effects, memoisation and JSX are left out. Components are state values and transitions.
- The page-reset effect runs after the render that changed the query. The model moves the change and the reset together, so that one transient render is not modelled.
- `localStorage` and the `try`/`catch` around it are left out. The wishlist store is a value. Malformed stored JSON is not modelled.
- `Date` parsing and `toISOString` are left out. Timestamps are integers.
- `Number()` coercion of strings, and its `NaN` cases, are left out. Numeric inputs are already integers or absent.
- Fractional prices and inventories are left out. They are integers here.
- Prices are not converted to floating point for display.
- Only ASCII letters are case-folded, and only ASCII whitespace, vertical tab and form feed count as whitespace. Full Unicode `toLowerCase`, `trim` and `\s` are not modelled.
- Strings are compared by code point. JavaScript compares UTF-16 units, which differs only for characters outside the Basic Multilingual Plane.
- Integer-like object keys are left out. JavaScript lists keys such as `"42"` before other keys. The model keeps all keys in insertion order.
- ByCategorySummarizes: states the corrected breakdown. On the page's `{}` a category named after an `Object.prototype` member gets no row (see Findings), and integer-like categories are listed first.
- Distinct: gives the keys of a dictionary with no inherited names. On a `{}` an inherited name never becomes a key, and integer-like keys come first.
- UpsertKeys: describes a dictionary step. On a `{}` an inherited name adds no key; `Objects.UpsertAsWritten` models that step.
- UpsertValues: describes a dictionary step. On a `{}` the update for an inherited name lands on the inherited value, not in an entry; `Objects.UpsertAsWritten` models that step.
- TallySummarizes: states the corrected step. On a `{}` a product of an inherited-name category leaves the table without its row.
- ByCategoryReconciles: states the corrected breakdown. On the page as written the counts add up only to the products of non-inherited categories (`Dashboard.ByCategoryAsWrittenCounts`).
- Render: uses the corrected breakdown. On the page as written the keys are the categories that are not inherited names.
- GroupByCategoryGroups: states the corrected grouping. On a `{}` an inherited-name category makes the reduce throw (`Recommendations.GroupByCategoryAsWrittenFails`).
- PushGrouped: states the corrected step. On a `{}` the `push` of an inherited-name category throws.
- GroupsPermute: states the corrected grouping. On the page as written no groups exist once some category is an inherited name.
- RecommendCovers: states the corrected page. As written the page fails and shows nothing when some category is an inherited name.
- `Math.max(0, ...ids)` over a very large store can exceed the engine's argument limit. That limit is not modelled.
- ProductsApi.NextId: ids are exact integers here, but the handler computes `Math.max(0, ...ids) + 1` in IEEE doubles, which stops increasing at 2^53. From a stored id of 9007199254740992 on it hands out that same id again, so `NextId` holds for the handler only while every id is below 2^53.
- PostKeepsIdsUnique: holds for the handler only while every stored id is below 2^53; from there on the double-precision `Math.max(0, ...ids) + 1` repeats an existing id.
- PostTwice: holds for the handler only while the ids stay below 2^53; from there on two creates can receive the same id.
- The navigation bar is left out. It is layout only.
- The home page and the product detail page are left out. They only load and render.
- The update-by-id route `app/api/products/[param]/route.ts` is left out. The panel's handling of its reply is modelled (`Admin.AfterUpdate`).
- The admin form's state and the `prompt` dialog are left out. A cancelled or empty price prompt makes no request, which is the same as `Admin.AfterUpdate` with `None`.

## Findings

| source | as written | input that shows it | evidently intended | confidence | as-written member | corrected member |
|---|---|---|---|---|---|---|
| app/dashboard/page.tsx:40-48 | The `reduce` starts from `{}` and creates a row only when `!acc[p.category]`. For a name `{}` inherits, the lookup finds an inherited value (a method, or `Object.prototype` itself for `__proto__`), so no row is made and the `+=` lines write onto that value | One product whose category is "constructor"; the POST handler stores any category text | One row per category, with counts adding up to the number of products | medium, not executed | `Dashboard.ByCategoryAsWritten`, `Dashboard.ConstructorRowMissing` | `Dashboard.ByCategory`, `Dashboard.ByCategorySummarizes` |
| app/recommendations/page.tsx:12-16 | The `reduce` starts from `{}`; for a name `{}` inherits, `acc[p.category]` is not replaced by `[]` and `.push(p)` throws a `TypeError` | One product whose category is "toString" | One group per category | medium, not executed | `Recommendations.GroupByCategoryAsWritten`, `Recommendations.ToStringCategoryThrows` | `Recommendations.GroupByCategory`, `Recommendations.GroupByCategoryGroups` |

For the dashboard, `Dashboard.ConstructorRowMissing` exhibits the input and
`Dashboard.ByCategoryAsWrittenCounts` states the general effect; the
corrected breakdown's properties are `Dashboard.ByCategorySummarizes` and
`Dashboard.ByCategoryReconciles`. For the recommendations page,
`Recommendations.ToStringCategoryThrows` exhibits the input and
`Recommendations.GroupByCategoryAsWrittenFails` states exactly when the page
fails; the corrected grouping's properties are
`Recommendations.GroupByCategoryGroups` and `Recommendations.GroupsPermute`.

=== FILE: admin.dfy ===
/** The admin panel's client-side list: its search-and-category filter, its
    category dropdown and how it folds server replies into the list. */
module Admin {
  import opened Seqs
  import opened Text
  import opened Catalog
  import opened Storefront
  import ProductsApi

  /** The dropdown entry that turns category filtering off. */
  const AnyCategory := ""

  /** Unlike the storefront, the admin search is not trimmed, and category
      filtering is off when the filter is empty. */
  predicate AdminListed(p: Product, query: string, categoryFilter: string) {
    MatchesQuery(p, Lower(query)) && (categoryFilter == AnyCategory || p.category == categoryFilter)
  }

  function AdminListedBy(query: string, categoryFilter: string): Product -> bool {
    p => AdminListed(p, query, categoryFilter)
  }

  /** `filteredProducts`. */
  function AdminFilter(products: seq<Product>, query: string, categoryFilter: string): (r: seq<Product>)
    ensures IsSubseq(r, products)
    ensures forall p :: p in r <==> p in products && AdminListed(p, query, categoryFilter)
  {
    FilterIsSubseq(products, AdminListedBy(query, categoryFilter));
    FilterMembers(products, AdminListedBy(query, categoryFilter));
    Filter(products, AdminListedBy(query, categoryFilter))
  }

  /** With an empty search and no category chosen, every product is shown. */
  lemma AdminFilterShowsAll(products: seq<Product>)
    ensures AdminFilter(products, "", AnyCategory) == products
  {
    forall p ensures AdminListed(p, "", AnyCategory) {
      EmptyQueryMatches(p);
    }
    FilterKeepAll(products, AdminListedBy("", AnyCategory));
  }

  /** For a search without surrounding whitespace the admin panel and the
      storefront list the same products, the empty filter playing the role
      of the "all" button. */
  lemma AdminAgreesWithStorefront(products: seq<Product>, query: string, category: string)
    requires Trim(query) == query
    requires category != AnyCategory && category != AllCategories
    ensures AdminFilter(products, query, category) == FilterProducts(products, query, category)
    ensures AdminFilter(products, query, AnyCategory) == FilterProducts(products, query, AllCategories)
  {
    FilterAgree(products, AdminListedBy(query, category), ListedBy(query, category));
    FilterAgree(products, AdminListedBy(query, AnyCategory), ListedBy(query, AllCategories));
  }

  /** The two filters part ways on a whitespace-only search: the storefront
      trims it away and lists everything, the admin panel looks for the
      space itself. */
  lemma BlankSearchDiffers(p: Product)
    requires NoSpace(p.name) && NoSpace(p.category) && NoSpace(p.description)
    ensures FilterProducts([p], " ", AllCategories) == [p]
    ensures AdminFilter([p], " ", AnyCategory) == []
  {
    assert Trim(" ") == [] by {
      var i :| OccursAt(" ", Trim(" "), i);
    }
    EmptyQueryMatches(p);
    assert Lower(" ") == " ";
    SpaceNotContained(p.name);
    SpaceNotContained(p.category);
    SpaceNotContained(p.description);
    assert !AdminListed(p, " ", AnyCategory);
  }

  lemma SpaceNotContained(s: string)
    requires NoSpace(s)
    ensures !Contains(Lower(s), " ")
  {
    ContainsIffOccurs(Lower(s), " ");
    forall i ensures !OccursAt(Lower(s), " ", i) {
      if 0 <= i && i + 1 <= |s| {
        assert Lower(s)[i..i + 1] == [ToLower(s[i])];
        assert ToLower(s[i]) != ' ';
      }
    }
  }

  /** `Array.from(new Set(categories)).sort()`: each category once, ascending. */
  function AdminCategories(products: seq<Product>): (r: seq<string>)
    ensures StrictlyAscending(r)
    ensures forall c :: c in r <==> c in CategoriesOf(products)
  {
    SortedDistinct(CategoriesOf(products))
  }

  /** The dropdown lists the same categories, in the same order, as the
      storefront's buttons after "all". */
  lemma AdminCategoriesMatchButtons(products: seq<Product>)
    ensures AdminCategories(products) == CategoryButtons(products)[1..]
  {
  }

  /** A successful create puts the returned record in front; a failed one
      (`None`) leaves the list alone. */
  function AfterCreate(products: seq<Product>, reply: Option<Product>): (r: seq<Product>)
    ensures reply.None? ==> r == products
    ensures reply.Some? ==> |r| == |products| + 1 && r[0] == reply.value && r[1..] == products
  {
    if reply.Some? then [reply.value] + products else products
  }

  /** A list loaded from the store stays a reordering of the store after a
      create through the panel. */
  lemma CreateKeepsMirror(products: seq<Product>, key: string, body: ProductsApi.CreateInput, now: int)
    requires key != ""
    ensures var o := ProductsApi.Post(Some(key), Some(key), body, products, now);
            multiset(AfterCreate(products, Some(o.response.product))) == multiset(o.store)
  {
  }

  /** `s.map((p) => (p.id === id ? updated : p))`. */
  function ReplaceById(products: seq<Product>, id: nat, updated: Product): (r: seq<Product>)
    ensures |r| == |products|
    ensures forall i :: 0 <= i < |r| ==> r[i] == if products[i].id == id then updated else products[i]
  {
    seq(|products|, i requires 0 <= i < |products| => if products[i].id == id then updated else products[i])
  }

  /** A rejected update (`None`) leaves the list alone. */
  function AfterUpdate(products: seq<Product>, id: nat, reply: Option<Product>): (r: seq<Product>)
    ensures reply.None? ==> r == products
    ensures reply.Some? ==> r == ReplaceById(products, id, reply.value)
  {
    if reply.Some? then ReplaceById(products, id, reply.value) else products
  }

  /** Replacing is idempotent, a missing id changes nothing, and a record
      that keeps its id keeps every identifier in place. */
  lemma ReplaceByIdProperties(products: seq<Product>, id: nat, updated: Product)
    ensures var once := ReplaceById(products, id, updated);
            updated.id == id ==> ReplaceById(once, id, updated) == once
    ensures id !in IdsOf(products) ==> ReplaceById(products, id, updated) == products
    ensures updated.id == id ==> IdsOf(ReplaceById(products, id, updated)) == IdsOf(products)
  {
  }

  /** With unique identifiers, an update swaps exactly one record. */
  lemma ReplaceByIdSwapsOne(products: seq<Product>, k: nat, updated: Product)
    requires ProductsApi.UniqueIds(products)
    requires k < |products|
    ensures var r := ReplaceById(products, products[k].id, updated);
            r == products[k := updated]
            && multiset(r) == multiset(products) - multiset{products[k]} + multiset{updated}
  {
  }
}

=== FILE: catalog.dfy ===
/** The catalog record and the per-product predicates shared by the
    storefront, the admin panel and the dashboard. */
module Catalog {
  import opened Seqs
  import opened Text

  datatype Option<T> = None | Some(value: T)

  /** One catalog entry. `id` is the decimal number the store keeps as a
      string; `price` is in whole currency units, as the
      request supplies it; `lastUpdated` is the
      timestamp `new Date(lastUpdated).getTime()` would give. */
  datatype Product = Product(
    id: nat,
    name: string,
    slug: string,
    description: string,
    price: int,
    category: string,
    inventory: int,
    lastUpdated: int)

  function CategoriesOf(ps: seq<Product>): (r: seq<string>)
    ensures |r| == |ps|
    ensures forall i :: 0 <= i < |ps| ==> r[i] == ps[i].category
  {
    seq(|ps|, i requires 0 <= i < |ps| => ps[i].category)
  }

  function IdsOf(ps: seq<Product>): (r: seq<nat>)
    ensures |r| == |ps|
    ensures forall i :: 0 <= i < |ps| ==> r[i] == ps[i].id
  {
    seq(|ps|, i requires 0 <= i < |ps| => ps[i].id)
  }

  function HasCategory(c: string): Product -> bool {
    (p: Product) => p.category == c
  }

  /** The products of category `c`, in catalog order. */
  function InCategory(ps: seq<Product>, c: string): seq<Product> {
    Filter(ps, HasCategory(c))
  }

  /** A category no product has selects nothing. */
  lemma InCategoryAbsent(ps: seq<Product>, c: string)
    requires c !in CategoriesOf(ps)
    ensures InCategory(ps, c) == []
  {
    forall x | x in ps ensures !HasCategory(c)(x) {
      var k :| 0 <= k < |ps| && ps[k] == x;
      assert CategoriesOf(ps)[k] == x.category;
    }
    FilterKeepNone(ps, HasCategory(c));
  }

  /** One more product joins its own category's list, at the end. */
  lemma InCategorySnoc(ps: seq<Product>, p: Product, d: string)
    ensures InCategory(ps + [p], d) == InCategory(ps, d) + (if p.category == d then [p] else [])
  {
    FilterSnoc(ps, p, HasCategory(d));
  }

  /** `q` (already lowercased) occurs in the lowercased name, category or
      description. */
  predicate MatchesQuery(p: Product, q: string) {
    Contains(Lower(p.name), q) || Contains(Lower(p.category), q) || Contains(Lower(p.description), q)
  }

  lemma EmptyQueryMatches(p: Product)
    ensures MatchesQuery(p, [])
  {
  }

  function Inventory(p: Product): int { p.inventory }

  function StockValue(p: Product): int { p.price * p.inventory }
}

=== FILE: dashboard.dfy ===
/** The server-rendered inventory dashboard: the newest-first product
    table, the stock-level cards, the total inventory value, the per-category
    breakdown and the per-row status badge. */
module Dashboard {
  import opened Seqs
  import opened Catalog
  import opened StableSort
  import opened Objects

  function LastUpdated(p: Product): int { p.lastUpdated }

  /** The table order: newest `lastUpdated` first, by a stable sort. */
  function NewestFirst(all: seq<Product>): (r: seq<Product>)
    ensures multiset(r) == multiset(all)
    ensures forall i, j :: 0 <= i < j < |r| ==> r[i].lastUpdated >= r[j].lastUpdated
    ensures SameTieOrder(r, all, LastUpdated)
  {
    SortDescPermutes(all, LastUpdated);
    SortDescStable(all, LastUpdated);
    SortDesc(all, LastUpdated)
  }

  predicate IsLowStock(p: Product) { p.inventory <= 5 }
  predicate IsOutOfStock(p: Product) { p.inventory == 0 }
  predicate IsMediumStock(p: Product) { p.inventory > 5 && p.inventory <= 20 }
  predicate IsHighStock(p: Product) { p.inventory > 20 }

  /** The metric cards and alert lists at the top of the page. */
  datatype StockCards = StockCards(
    total: nat,
    low: seq<Product>,
    outOfStock: seq<Product>,
    medium: seq<Product>,
    high: seq<Product>)

  /** The "Low" card counts every product with at most 5 units, so it
      includes the out-of-stock ones; the three stock cards partition the
      products. */
  function Cards(products: seq<Product>): (c: StockCards)
    ensures c.total == |products|
    ensures multiset(c.low) + multiset(c.medium) + multiset(c.high) == multiset(products)
    ensures |c.low| + |c.medium| + |c.high| == c.total
    ensures IsSubseq(c.outOfStock, c.low)
  {
    var low := Filter(products, IsLowStock);
    var out := Filter(products, IsOutOfStock);
    var medium := Filter(products, IsMediumStock);
    var high := Filter(products, IsHighStock);
    CardsPartition(products);
    assert |multiset(products)| == |products|;
    FilterFilter(products, IsLowStock, IsOutOfStock, IsOutOfStock);
    FilterIsSubseq(low, IsOutOfStock);
    StockCards(|products|, low, out, medium, high)
  }

  /** No product is counted on two stock cards. */
  lemma CardsDisjoint(products: seq<Product>, p: Product)
    ensures !(p in Cards(products).low && p in Cards(products).medium)
    ensures !(p in Cards(products).low && p in Cards(products).high)
    ensures !(p in Cards(products).medium && p in Cards(products).high)
    ensures p in Cards(products).outOfStock ==> p in Cards(products).low
  {
    FilterMembers(products, IsLowStock);
    FilterMembers(products, IsMediumStock);
    FilterMembers(products, IsHighStock);
    FilterMembers(products, IsOutOfStock);
  }

  lemma CardsPartition(products: seq<Product>)
    ensures multiset(Filter(products, IsLowStock)) + multiset(Filter(products, IsMediumStock))
            + multiset(Filter(products, IsHighStock)) == multiset(products)
  {
    FilterCount(products, IsLowStock);
    FilterCount(products, IsMediumStock);
    FilterCount(products, IsHighStock);
    var m := multiset(Filter(products, IsLowStock)) + multiset(Filter(products, IsMediumStock))
             + multiset(Filter(products, IsHighStock));
    forall p ensures m[p] == multiset(products)[p] {
    }
  }

  datatype Badge = Out | Low | Med | High

  /** The status badge of a table row. */
  function StatusBadge(inventory: int): (b: Badge)
    ensures b == Out <==> inventory == 0
    ensures b == Low <==> inventory != 0 && inventory <= 5
    ensures b == Med <==> 5 < inventory <= 20
    ensures b == High <==> inventory > 20
    ensures inventory >= 0 ==> (b == Low <==> 1 <= inventory <= 5)
  {
    if inventory == 0 then Out
    else if inventory <= 5 then Low
    else if inventory <= 20 then Med
    else High
  }

  /** A row's badge agrees with the cards it is counted in: "Out" rows are
      the out-of-stock alert, "Out" and "Low" rows are the "Low" card,
      "Med" and "High" rows are the other two cards. */
  lemma BadgeMatchesCards(products: seq<Product>, p: Product)
    requires p in products
    ensures StatusBadge(p.inventory) == Out <==> p in Cards(products).outOfStock
    ensures StatusBadge(p.inventory) in {Out, Low} <==> p in Cards(products).low
    ensures StatusBadge(p.inventory) == Med <==> p in Cards(products).medium
    ensures StatusBadge(p.inventory) == High <==> p in Cards(products).high
  {
    FilterMembers(products, IsLowStock);
    FilterMembers(products, IsMediumStock);
    FilterMembers(products, IsHighStock);
    FilterMembers(products, IsOutOfStock);
  }

  /** `reduce((sum, p) => sum + p.price * p.inventory, 0)`. */
  function TotalValue(products: seq<Product>): int {
    Sum(products, StockValue)
  }

  /** Sorting the table first does not change the total value. */
  lemma TotalValueIgnoresOrder(all: seq<Product>)
    ensures TotalValue(NewestFirst(all)) == TotalValue(all)
    ensures all == [] ==> TotalValue(all) == 0
  {
    SumPermutation(NewestFirst(all), all, StockValue);
  }

  /** Count, units in stock and stock value of a group of products. */
  datatype Rollup = Rollup(count: int, totalStock: int, value: int)

  /** The rollup every category starts from. */
  const Zero := Rollup(0, 0, 0)

  /** Adds one product to a rollup. */
  function Tally(p: Product): Rollup -> Rollup {
    (r: Rollup) => Rollup(r.count + 1, r.totalStock + p.inventory, r.value + p.price * p.inventory)
  }

  /** The rollup of a list of products, computed independently of the reduce. */
  function Summary(ps: seq<Product>): Rollup {
    Rollup(|ps|, Sum(ps, Inventory), Sum(ps, StockValue))
  }

  /** The `byCategory` reduce, one product at a time from the left. */
  function ByCategory(products: seq<Product>): seq<Entry<Rollup>>
    decreases |products|
  {
    if products == [] then []
    else
      var p := products[|products| - 1];
      Upsert(ByCategory(products[..|products| - 1]), p.category, Zero, Tally(p))
  }

  /** `rows` is the breakdown of `ps`: one row per category, in order of
      first appearance, each summarizing exactly that category's products. */
  ghost predicate Summarizes(rows: seq<Entry<Rollup>>, ps: seq<Product>) {
    && Keys(rows) == Distinct(CategoriesOf(ps))
    && forall i :: 0 <= i < |rows| ==> rows[i].value == Summary(InCategory(ps, rows[i].key))
  }

  /** The breakdown has one row per category, in order of first appearance,
      and each row totals exactly the products of its category. */
  lemma {:induction false} ByCategorySummarizes(products: seq<Product>)
    ensures Summarizes(ByCategory(products), products)
    decreases |products|
  {
    if products != [] {
      var init := products[..|products| - 1];
      var p := products[|products| - 1];
      ByCategorySummarizes(init);
      assert products == init + [p];
      TallySummarizes(ByCategory(init), init, p);
    }
  }

  lemma SummarySnoc(ps: seq<Product>, p: Product)
    ensures Summary(ps + [p]) == Tally(p)(Summary(ps))
  {
  }

  /** One step of the reduce keeps the breakdown exact. */
  lemma TallySummarizes(rows: seq<Entry<Rollup>>, ps: seq<Product>, p: Product)
    requires Summarizes(rows, ps)
    ensures Summarizes(Upsert(rows, p.category, Zero, Tally(p)), ps + [p])
  {
    var c := p.category;
    var next := Upsert(rows, c, Zero, Tally(p));
    var cats := CategoriesOf(ps + [p]);
    assert cats == CategoriesOf(ps) + [c];
    UpsertDistinct(rows, CategoriesOf(ps), c, Zero, Tally(p));
    DistinctKeysOf(rows, CategoriesOf(ps));
    UpsertValues(rows, c, Zero, Tally(p));
    forall j | 0 <= j < |next|
      ensures next[j].value == Summary(InCategory(ps + [p], next[j].key))
    {
      InCategorySnoc(ps, p, next[j].key);
      if j < |rows| && rows[j].key != c {
        assert InCategory(ps, rows[j].key) + [] == InCategory(ps, rows[j].key);
      } else if j < |rows| {
        SummarySnoc(InCategory(ps, c), p);
      } else {
        assert c !in Distinct(CategoriesOf(ps));
        InCategoryAbsent(ps, c);
        SummarySnoc([], p);
        assert [] + [p] == [p];
      }
    }
  }

  /** Products whose category can become a key of a `{}` accumulator. */
  predicate OwnCategory(p: Product) {
    !Inherited(p.category)
  }

  /** The `byCategory` reduce as it runs on the `{}` literal it starts from. */
  function ByCategoryAsWritten(products: seq<Product>): seq<Entry<Rollup>>
    decreases |products|
  {
    if products == [] then []
    else
      var p := products[|products| - 1];
      UpsertAsWritten(ByCategoryAsWritten(products[..|products| - 1]), p.category, Zero, Tally(p))
  }

  /** On the `{}` accumulator the breakdown is that of the products whose
      category is not an inherited name; the others get no row. */
  lemma {:induction false} ByCategoryAsWrittenSkips(products: seq<Product>)
    ensures ByCategoryAsWritten(products) == ByCategory(Filter(products, OwnCategory))
    decreases |products|
  {
    if products != [] {
      var init := products[..|products| - 1];
      var p := products[|products| - 1];
      ByCategoryAsWrittenSkips(init);
      assert products == init + [p];
      FilterSnoc(init, p, OwnCategory);
      var kept := Filter(init, OwnCategory);
      assert ByCategoryAsWritten(products)
             == UpsertAsWritten(ByCategory(kept), p.category, Zero, Tally(p));
      if OwnCategory(p) {
        assert (kept + [p])[..|kept|] == kept;
      } else {
        assert kept + [] == kept;
      }
    }
  }

  /** The as-written breakdown reconciles only with the products it kept:
      its counts add up to the number of products of non-inherited
      categories, and to every product exactly when no category is
      inherited. */
  lemma ByCategoryAsWrittenCounts(products: seq<Product>)
    ensures Sum(ByCategoryAsWritten(products), RowCount) == |Filter(products, OwnCategory)|
    ensures (forall p :: p in products ==> OwnCategory(p)) ==> ByCategoryAsWritten(products) == ByCategory(products)
  {
    ByCategoryAsWrittenSkips(products);
    ByCategoryReconciles(Filter(products, OwnCategory));
    if forall p :: p in products ==> OwnCategory(p) {
      FilterKeepAll(products, OwnCategory);
    }
  }

  /** One product in the category "constructor": the corrected breakdown
      has its row, the page as written shows no row and counts nothing. */
  lemma ConstructorRowMissing(p: Product)
    requires p.category == "constructor"
    ensures ByCategoryAsWritten([p]) == []
    ensures ByCategory([p]) == [Entry("constructor", Summary([p]))]
  {
    assert Inherited("constructor");
    assert [p][..0] == [];
    SummarySnoc([], p);
    assert [] + [p] == [p];
  }

  function RowCount(r: Entry<Rollup>): int { r.value.count }
  function RowStock(r: Entry<Rollup>): int { r.value.totalStock }
  function RowValue(r: Entry<Rollup>): int { r.value.value }

  /** The breakdown reconciles with the whole list: its counts add up to
      the number of products, its stock to the total units, its values to
      the total inventory value. */
  lemma {:induction false} ByCategoryReconciles(products: seq<Product>)
    ensures Sum(ByCategory(products), RowCount) == |products|
    ensures Sum(ByCategory(products), RowStock) == Sum(products, Inventory)
    ensures Sum(ByCategory(products), RowValue) == TotalValue(products)
    decreases |products|
  {
    if products != [] {
      var init := products[..|products| - 1];
      var p := products[|products| - 1];
      ByCategoryReconciles(init);
      var rows := ByCategory(init);
      var i := IndexOf(rows, p.category);
      if i < |rows| {
        var row := Entry(p.category, Tally(p)(rows[i].value));
        SumUpdate(rows, i, row, RowCount);
        SumUpdate(rows, i, row, RowStock);
        SumUpdate(rows, i, row, RowValue);
      } else {
        var row := Entry(p.category, Tally(p)(Zero));
        assert (rows + [row])[..|rows|] == rows;
      }
    }
  }

  /** Everything the dashboard renders. */
  datatype View = View(products: seq<Product>, cards: StockCards, totalValue: int, byCategory: seq<Entry<Rollup>>)

  /** All figures are computed over the sorted table; they agree with the
      stored list because sorting only reorders it. */
  function Render(all: seq<Product>): (v: View)
    ensures multiset(v.products) == multiset(all)
    ensures v.cards == Cards(v.products)
    ensures v.cards.total == |all|
    ensures multiset(v.cards.low) == multiset(Filter(all, IsLowStock))
    ensures multiset(v.cards.outOfStock) == multiset(Filter(all, IsOutOfStock))
    ensures multiset(v.cards.medium) == multiset(Filter(all, IsMediumStock))
    ensures multiset(v.cards.high) == multiset(Filter(all, IsHighStock))
    ensures v.totalValue == Sum(all, StockValue)
    ensures Sum(v.byCategory, RowCount) == |all|
    ensures Sum(v.byCategory, RowStock) == Sum(all, Inventory)
    ensures Sum(v.byCategory, RowValue) == v.totalValue
    ensures forall c :: c in Keys(v.byCategory) <==> c in CategoriesOf(all)
  {
    var products := NewestFirst(all);
    TotalValueIgnoresOrder(all);
    SumPermutation(products, all, Inventory);
    ByCategoryReconciles(products);
    ByCategorySummarizes(products);
    FilterPermutes(products, all, IsLowStock);
    FilterPermutes(products, all, IsOutOfStock);
    FilterPermutes(products, all, IsMediumStock);
    FilterPermutes(products, all, IsHighStock);
    var rows := ByCategory(products);
    forall c ensures c in CategoriesOf(products) <==> c in CategoriesOf(all) {
      CategoriesPermutation(products, all, c);
    }
    View(products, Cards(products), TotalValue(products), rows)
  }

  lemma CategoriesPermutation(a: seq<Product>, b: seq<Product>, c: string)
    requires multiset(a) == multiset(b)
    ensures c in CategoriesOf(a) <==> c in CategoriesOf(b)
  {
    if c in CategoriesOf(a) {
      var k :| 0 <= k < |a| && CategoriesOf(a)[k] == c;
      assert a[k] in multiset(b);
      var m :| 0 <= m < |b| && b[m] == a[k];
      assert CategoriesOf(b)[m] == c;
    }
    if c in CategoriesOf(b) {
      var k :| 0 <= k < |b| && CategoriesOf(b)[k] == c;
      assert b[k] in multiset(a);
      var m :| 0 <= m < |a| && a[m] == b[k];
      assert CategoriesOf(a)[m] == c;
    }
  }
}

=== FILE: objects.dfy ===
/** A JavaScript object used as a string-keyed dictionary and filled by a
    left-to-right `reduce`: an association list whose keys keep the order in
    which they were first assigned. */
module Objects {
  import opened Seqs

  datatype Entry<V> = Entry(key: string, value: V)

  /** `Object.keys(obj)`, in insertion order. */
  function Keys<V>(es: seq<Entry<V>>): (r: seq<string>)
    ensures |r| == |es|
    ensures forall i :: 0 <= i < |es| ==> r[i] == es[i].key
  {
    seq(|es|, i requires 0 <= i < |es| => es[i].key)
  }

  predicate DistinctKeys<V>(es: seq<Entry<V>>) {
    forall i, j :: 0 <= i < j < |es| ==> es[i].key != es[j].key
  }

  /** Position of the entry for `k`, or `|es|` when `k` is not a key. */
  function IndexOf<V>(es: seq<Entry<V>>, k: string): (i: nat)
    ensures i <= |es|
    ensures i < |es| ==> es[i].key == k
    ensures forall j :: 0 <= j < i ==> es[j].key != k
    decreases |es|
  {
    if es == [] then 0
    else if es[0].key == k then 0
    else 1 + IndexOf(es[1..], k)
  }

  /** `if (!obj[k]) obj[k] = init; obj[k] = f(obj[k])`: creates the entry
      on first use, then updates it in place. */
  function Upsert<V>(es: seq<Entry<V>>, k: string, init: V, f: V -> V): seq<Entry<V>> {
    var i := IndexOf(es, k);
    if i < |es| then es[i := Entry(k, f(es[i].value))] else es + [Entry(k, f(init))]
  }

  /** The property names a `{}` literal inherits from `Object.prototype`.
      Looking one up on an empty object finds a function, or the prototype
      object itself for `__proto__`, never `undefined`. */
  predicate Inherited(k: string) {
    k in ["constructor", "hasOwnProperty", "isPrototypeOf", "propertyIsEnumerable",
          "toLocaleString", "toString", "valueOf", "__proto__",
          "__defineGetter__", "__defineSetter__", "__lookupGetter__", "__lookupSetter__"]
  }

  /** The step as it behaves on a `{}` accumulator: for an inherited name
      `!obj[k]` is false, so no entry is created and the update is written
      onto the inherited value instead of into the table. */
  function UpsertAsWritten<V>(es: seq<Entry<V>>, k: string, init: V, f: V -> V): seq<Entry<V>> {
    if Inherited(k) then es else Upsert(es, k, init, f)
  }

  /** A new key goes last; an existing key keeps its place. */
  lemma UpsertKeys<V>(es: seq<Entry<V>>, k: string, init: V, f: V -> V)
    ensures Keys(Upsert(es, k, init, f)) == if k in Keys(es) then Keys(es) else Keys(es) + [k]
  {
  }

  /** Only the entry for `k` changes, and it changes by one application of `f`. */
  lemma UpsertValues<V>(es: seq<Entry<V>>, k: string, init: V, f: V -> V)
    requires DistinctKeys(es)
    ensures var r := Upsert(es, k, init, f);
            && |r| == (if k in Keys(es) then |es| else |es| + 1)
            && (forall j :: 0 <= j < |es| ==> r[j].key == es[j].key)
            && (forall j :: 0 <= j < |es| ==> r[j].value == if es[j].key == k then f(es[j].value) else es[j].value)
            && (k !in Keys(es) ==> r[|es|] == Entry(k, f(init)))
  {
  }

  /** The keys of a `reduce` over `xs` are the distinct values of `xs`. */
  lemma UpsertDistinct<V>(es: seq<Entry<V>>, xs: seq<string>, x: string, init: V, f: V -> V)
    requires Keys(es) == Distinct(xs)
    ensures Keys(Upsert(es, x, init, f)) == Distinct(xs + [x])
    ensures DistinctKeys(Upsert(es, x, init, f))
  {
    UpsertKeys(es, x, init, f);
    DistinctSnoc(xs, x);
    var r := Upsert(es, x, init, f);
    forall i, j | 0 <= i < j < |r| ensures r[i].key != r[j].key {
      assert Keys(r)[i] != Keys(r)[j];
    }
  }

  lemma DistinctKeysOf<V>(es: seq<Entry<V>>, xs: seq<string>)
    requires Keys(es) == Distinct(xs)
    ensures DistinctKeys(es)
  {
  }
}

=== FILE: products_api.dfy ===
/** The product collection's HTTP handler: the shared-secret check, the next
    identifier, the defaults of a new record and the append to the store. */
module ProductsApi {
  import opened Seqs
  import opened Text
  import opened Catalog

  /** The JSON body of a create request; an absent field is `None`. Numeric
      fields hold the value `Number(...)` already produced. */
  datatype CreateInput = CreateInput(
    name: Option<string>,
    slug: Option<string>,
    description: Option<string>,
    price: Option<int>,
    category: Option<string>,
    inventory: Option<int>)

  datatype Response = Created(product: Product) | Unauthorized

  /** The HTTP status code each response carries. */
  function Status(r: Response): (code: int)
    ensures code == 201 <==> r.Created?
    ensures code == 401 <==> r.Unauthorized?
  {
    match r
    case Created(_) => 201
    case Unauthorized => 401
  }

  /** The request is let through only with a non-empty `x-admin-key` header
      equal to the configured `ADMIN_KEY`; with no key configured nobody is. */
  predicate Authorized(header: Option<string>, configured: Option<string>) {
    header.Some? && header.value != "" && configured == Some(header.value)
  }

  /** With no key configured, or an empty one, every request is refused;
      otherwise exactly the requests carrying that key get through. */
  lemma KeyGuard(header: Option<string>, configured: Option<string>)
    ensures configured.None? || configured == Some("") ==> !Authorized(header, configured)
    ensures configured.Some? && configured.value != "" ==> (Authorized(header, configured) <==> header == configured)
  {
  }

  /** `s || fallback` for an optional string: absent and empty both fall back. */
  function TextOr(s: Option<string>, fallback: string): (r: string)
    ensures s.Some? && s.value != "" ==> r == s.value
    ensures s.None? || s.value == "" ==> r == fallback
  {
    if s.Some? && s.value != "" then s.value else fallback
  }

  /** `Number(x) || 0` once the coercion is done: an absent number is 0. */
  function NumberOr0(n: Option<int>): (r: int)
    ensures n.Some? ==> r == n.value
    ensures n.None? ==> r == 0
  {
    if n.Some? then n.value else 0
  }

  /** `Math.max(0, ...ids)`. */
  function MaxId(ps: seq<Product>): (m: nat)
    ensures forall i :: 0 <= i < |ps| ==> ps[i].id <= m
    ensures m == 0 || exists i :: 0 <= i < |ps| && ps[i].id == m
    decreases |ps|
  {
    if ps == [] then 0
    else
      var rest := MaxId(ps[1..]);
      assert forall i :: 1 <= i < |ps| ==> ps[i] == ps[1..][i - 1];
      if ps[0].id >= rest then ps[0].id
      else
        assert ps[1..][0] == ps[1];
        rest
  }

  /** One more than the largest identifier in the store, 1 for an empty one. */
  function NextId(ps: seq<Product>): (id: nat)
    ensures id >= 1
    ensures forall i :: 0 <= i < |ps| ==> ps[i].id < id
    ensures ps == [] ==> id == 1
    ensures ps != [] ==> exists i :: 0 <= i < |ps| && ps[i].id + 1 == id
  {
    MaxId(ps) + 1
  }

  /** The slug derived from a name: lowercased, whitespace runs as `-`. */
  function Slugify(name: string): (r: string)
    ensures NoSpace(r) && NoUpper(r)
  {
    HyphenateKeepsLower(Lower(name));
    Hyphenate(Lower(name))
  }

  /** The record a create request adds, stamped with time `now`. */
  function NewProduct(body: CreateInput, store: seq<Product>, now: int): (p: Product)
    ensures p.id == NextId(store)
    ensures p.name == TextOr(body.name, "")
    ensures p.slug == TextOr(body.slug, Slugify(TextOr(body.name, "")))
    ensures p.description == TextOr(body.description, "")
    ensures p.price == NumberOr0(body.price)
    ensures p.category == TextOr(body.category, "uncategorized")
    ensures p.category != ""
    ensures p.inventory == NumberOr0(body.inventory)
    ensures p.lastUpdated == now
  {
    var name := TextOr(body.name, "");
    Product(
      NextId(store),
      name,
      TextOr(body.slug, Slugify(name)),
      TextOr(body.description, ""),
      NumberOr0(body.price),
      TextOr(body.category, "uncategorized"),
      NumberOr0(body.inventory),
      now)
  }

  /** The response and the store after the handler has run. */
  datatype PostOutcome = PostOutcome(response: Response, store: seq<Product>)

  /** POST: reject without the secret, otherwise append the new record and
      return it. */
  function Post(header: Option<string>, configured: Option<string>, body: CreateInput,
                store: seq<Product>, now: int): (o: PostOutcome)
    ensures !Authorized(header, configured) ==> o == PostOutcome(Unauthorized, store)
    ensures Authorized(header, configured) ==>
              && o.response.Created?
              && o.store == store + [o.response.product]
              && o.response.product.id !in IdsOf(store)
              && o.response.product.lastUpdated == now
              && o.response.product == NewProduct(body, store, now)
  {
    if !Authorized(header, configured) then PostOutcome(Unauthorized, store)
    else
      var p := NewProduct(body, store, now);
      PostOutcome(Created(p), store + [p])
  }

  predicate UniqueIds(ps: seq<Product>) {
    forall i, j :: 0 <= i < j < |ps| ==> ps[i].id != ps[j].id
  }

  /** Creating a product never introduces a duplicate identifier, whatever
      the request. */
  lemma PostKeepsIdsUnique(header: Option<string>, configured: Option<string>, body: CreateInput,
                           store: seq<Product>, now: int)
    requires UniqueIds(store)
    ensures UniqueIds(Post(header, configured, body, store, now).store)
  {
  }

  /** Two successful creates in a row get consecutive identifiers. */
  lemma PostTwice(key: string, a: CreateInput, b: CreateInput, store: seq<Product>, t1: int, t2: int)
    requires key != ""
    ensures var first := Post(Some(key), Some(key), a, store, t1);
            var second := Post(Some(key), Some(key), b, first.store, t2);
            second.response.Created? && second.response.product.id == first.response.product.id + 1
  {
    var first := Post(Some(key), Some(key), a, store, t1);
    var p := first.response.product;
    assert first.store[|store|] == p;
    assert MaxId(first.store) == p.id by {
      assert MaxId(first.store) >= p.id;
    }
  }

  /** A store holding one tool, "Widget", with id 1. */
  function WidgetStore(): seq<Product> {
    [Product(1, "Widget", "widget", "", 10, "tools", 3, 0)]
  }

  /** The slug derived from "Gadget". */
  lemma GadgetSlug()
    ensures Slugify("Gadget") == "gadget"
  {
    var l := Lower("Gadget");
    assert l[0] == ToLower('G') == 'g';
    assert l == "gadget";
    HyphenateWord("gadget");
  }

  /** Creating "Gadget" without the secret is refused; with it, the record
      gets id 2, slug "gadget" and zero stock. */
  lemma GadgetScenario(key: string, now: int)
    requires key != ""
    ensures Post(None, Some(key), CreateInput(Some("Gadget"), None, None, Some(20), Some("tools"), Some(0)),
                 WidgetStore(), now).response == Unauthorized
    ensures var o := Post(Some(key), Some(key), CreateInput(Some("Gadget"), None, None, Some(20), Some("tools"), Some(0)),
                          WidgetStore(), now);
            o.response == Created(Product(2, "Gadget", "gadget", "", 20, "tools", 0, now))
  {
    GadgetSlug();
    assert MaxId(WidgetStore()) == 1;
  }
}

=== FILE: recommendations.dfy ===
/** The recommendations page: the catalog grouped by category, then the two
    best-stocked products of each group. */
module Recommendations {
  import opened Seqs
  import opened Catalog
  import opened StableSort
  import opened Objects

  /** How many products each category recommends. */
  const Picks: nat := 2

  /** `acc[p.category].push(p)`. */
  function Push(p: Product): seq<Product> -> seq<Product> {
    (items: seq<Product>) => items + [p]
  }

  /** The grouping `reduce`, one product at a time from the left. */
  function GroupByCategory(ps: seq<Product>): seq<Entry<seq<Product>>>
    decreases |ps|
  {
    if ps == [] then []
    else
      var p := ps[|ps| - 1];
      Upsert(GroupByCategory(ps[..|ps| - 1]), p.category, [], Push(p))
  }

  /** `groups` has one entry per category of `ps`, in order of first
      appearance, holding exactly that category's products in catalog order. */
  ghost predicate Grouped(groups: seq<Entry<seq<Product>>>, ps: seq<Product>) {
    && Keys(groups) == Distinct(CategoriesOf(ps))
    && forall i :: 0 <= i < |groups| ==> groups[i].value == InCategory(ps, groups[i].key)
  }

  /** One push keeps the grouping exact. */
  lemma PushGrouped(groups: seq<Entry<seq<Product>>>, ps: seq<Product>, p: Product)
    requires Grouped(groups, ps)
    ensures Grouped(Upsert(groups, p.category, [], Push(p)), ps + [p])
  {
    var c := p.category;
    var next := Upsert(groups, c, [], Push(p));
    assert CategoriesOf(ps + [p]) == CategoriesOf(ps) + [c];
    UpsertDistinct(groups, CategoriesOf(ps), c, [], Push(p));
    DistinctKeysOf(groups, CategoriesOf(ps));
    UpsertValues(groups, c, [], Push(p));
    forall j | 0 <= j < |next|
      ensures next[j].value == InCategory(ps + [p], next[j].key)
    {
      InCategorySnoc(ps, p, next[j].key);
      if j < |groups| && groups[j].key != c {
        assert InCategory(ps, groups[j].key) + [] == InCategory(ps, groups[j].key);
      } else if j == |groups| {
        assert c !in Distinct(CategoriesOf(ps));
        InCategoryAbsent(ps, c);
      }
    }
  }

  lemma {:induction false} GroupByCategoryGroups(ps: seq<Product>)
    ensures Grouped(GroupByCategory(ps), ps)
    decreases |ps|
  {
    if ps != [] {
      var init := ps[..|ps| - 1];
      var p := ps[|ps| - 1];
      GroupByCategoryGroups(init);
      assert ps == init + [p];
      PushGrouped(GroupByCategory(init), init, p);
    }
  }

  /** The grouping `reduce` as it runs on the `{}` literal it starts from:
      for an inherited category the lookup finds a value without a `push`
      method, the call throws a `TypeError` and the page renders nothing
      (`None`). */
  function GroupByCategoryAsWritten(ps: seq<Product>): Option<seq<Entry<seq<Product>>>>
    decreases |ps|
  {
    if ps == [] then Some([])
    else
      var p := ps[|ps| - 1];
      match GroupByCategoryAsWritten(ps[..|ps| - 1])
      case None => None
      case Some(groups) =>
        if Inherited(p.category) then None else Some(Upsert(groups, p.category, [], Push(p)))
  }

  /** The page as written fails exactly when some product's category is an
      inherited name, and otherwise groups as the corrected reduce does. */
  lemma {:induction false} GroupByCategoryAsWrittenFails(ps: seq<Product>)
    ensures GroupByCategoryAsWritten(ps).None? <==> exists p :: p in ps && Inherited(p.category)
    ensures GroupByCategoryAsWritten(ps).Some? ==> GroupByCategoryAsWritten(ps).value == GroupByCategory(ps)
    decreases |ps|
  {
    if ps != [] {
      var init := ps[..|ps| - 1];
      var p := ps[|ps| - 1];
      GroupByCategoryAsWrittenFails(init);
      assert ps == init + [p];
      assert forall q :: q in ps <==> q in init || q == p;
    }
  }

  /** A single product in the category "toString" makes the page fail. */
  lemma ToStringCategoryThrows(p: Product)
    requires p.category == "toString"
    ensures GroupByCategoryAsWritten([p]) == None
    ensures GroupByCategory([p]) == [Entry("toString", [p])]
  {
    assert Inherited("toString");
    assert [p][..0] == [];
    assert GroupByCategory([p]) == Upsert([], p.category, [], Push(p));
    assert Push(p)([]) == [p];
  }

  /** The groups one after the other. */
  function Flatten(groups: seq<Entry<seq<Product>>>): seq<Product>
    decreases |groups|
  {
    if groups == [] then [] else groups[0].value + Flatten(groups[1..])
  }

  lemma {:induction false} FlattenSnoc(groups: seq<Entry<seq<Product>>>, e: Entry<seq<Product>>)
    ensures Flatten(groups + [e]) == Flatten(groups) + e.value
    decreases |groups|
  {
    if groups == [] {
      assert Flatten([e]) == e.value + Flatten([]);
    } else {
      assert (groups + [e])[1..] == groups[1..] + [e];
      FlattenSnoc(groups[1..], e);
    }
  }

  lemma {:induction false} FlattenUpdate(groups: seq<Entry<seq<Product>>>, i: nat, e: Entry<seq<Product>>)
    requires i < |groups|
    ensures multiset(Flatten(groups[i := e])) + multiset(groups[i].value)
            == multiset(Flatten(groups)) + multiset(e.value)
    decreases |groups|
  {
    if i == 0 {
      assert groups[i := e][1..] == groups[1..];
    } else {
      var rest := groups[1..];
      assert groups[i := e][0] == groups[0];
      assert groups[i := e][1..] == rest[i - 1 := e];
      assert rest[i - 1] == groups[i];
      FlattenUpdate(rest, i - 1, e);
      assert Flatten(groups) == groups[0].value + Flatten(rest);
      assert Flatten(groups[i := e]) == groups[0].value + Flatten(rest[i - 1 := e]);
      var head := multiset(groups[0].value);
      assert multiset(Flatten(groups[i := e])) == head + multiset(Flatten(rest[i - 1 := e]));
      assert multiset(Flatten(groups)) == head + multiset(Flatten(rest));
      calc {
        multiset(Flatten(groups[i := e])) + multiset(groups[i].value);
        head + multiset(Flatten(rest[i - 1 := e])) + multiset(rest[i - 1].value);
        head + (multiset(Flatten(rest[i - 1 := e])) + multiset(rest[i - 1].value));
        head + (multiset(Flatten(rest)) + multiset(e.value));
        multiset(Flatten(groups)) + multiset(e.value);
      }
    }
  }

  /** One push adds exactly one product to the groups. */
  lemma PushPermutes(groups: seq<Entry<seq<Product>>>, p: Product)
    ensures multiset(Flatten(Upsert(groups, p.category, [], Push(p)))) == multiset(Flatten(groups)) + multiset{p}
  {
    var i := IndexOf(groups, p.category);
    if i < |groups| {
      var e := Entry(p.category, groups[i].value + [p]);
      assert Upsert(groups, p.category, [], Push(p)) == groups[i := e];
      FlattenUpdate(groups, i, e);
      var a := multiset(Flatten(groups[i := e]));
      var b := multiset(groups[i].value);
      var c := multiset(Flatten(groups)) + multiset{p};
      assert a + b == c + b;
      forall x ensures a[x] == c[x] {
        assert (a + b)[x] == (c + b)[x];
      }
      assert a == c;
    } else {
      assert Push(p)([]) == [p];
      FlattenSnoc(groups, Entry(p.category, [p]));
    }
  }

  /** Grouping only rearranges the catalog: every product lands in exactly
      one group. */
  lemma {:induction false} GroupsPermute(ps: seq<Product>)
    ensures multiset(Flatten(GroupByCategory(ps))) == multiset(ps)
    decreases |ps|
  {
    if ps != [] {
      var init := ps[..|ps| - 1];
      var p := ps[|ps| - 1];
      GroupsPermute(init);
      assert ps == init + [p];
      PushPermutes(GroupByCategory(init), p);
    }
  }

  /** `sort((a, b) => b.inventory - a.inventory).slice(0, 2)`. */
  function TopByInventory(items: seq<Product>): (r: seq<Product>)
    ensures r == SortDesc(items, Inventory)[..Min(Picks, |items|)]
  {
    Slice(SortDesc(items, Inventory), 0, Picks)
  }

  /** As many picks as the group has, at most two, taken from the group,
      best-stocked first. */
  lemma TopByInventoryTaken(items: seq<Product>)
    ensures |TopByInventory(items)| == Min(Picks, |items|)
    ensures multiset(TopByInventory(items)) <= multiset(items)
    ensures NonIncreasing(TopByInventory(items), Inventory)
  {
    var sorted := SortDesc(items, Inventory);
    var m := Min(Picks, |items|);
    SortDescPermutes(items, Inventory);
    assert sorted == sorted[..m] + sorted[m..];
    assert multiset(sorted) == multiset(sorted[..m]) + multiset(sorted[m..]);
  }

  /** No product left out of the picks has more stock than a pick. */
  lemma TopByInventoryBest(items: seq<Product>, y: Product)
    requires multiset(TopByInventory(items))[y] < multiset(items)[y]
    ensures forall i :: 0 <= i < |TopByInventory(items)| ==> TopByInventory(items)[i].inventory >= y.inventory
  {
    SortDescPermutes(items, Inventory);
    PrefixDominates(SortDesc(items, Inventory), Min(Picks, |items|), Inventory, y);
  }

  /** Among products with equal stock, the picks are the earliest in the group. */
  lemma TopByInventoryStable(items: seq<Product>, k: int)
    ensures WithKey(TopByInventory(items), Inventory, k) <= WithKey(items, Inventory, k)
  {
    var sorted := SortDesc(items, Inventory);
    SortDescStable(items, Inventory);
    FilterPrefix(sorted, Min(Picks, |items|), KeyIs(Inventory, k));
  }

  /** The `recommendations` object: each category's picks, keyed as the
      grouping is. */
  function Recommend(ps: seq<Product>): seq<Entry<seq<Product>>> {
    var groups := GroupByCategory(ps);
    seq(|groups|, i requires 0 <= i < |groups| => Entry(groups[i].key, TopByInventory(groups[i].value)))
  }

  /** Every category of the catalog appears once, in order of first
      appearance, with one or two picks, all of that category. */
  lemma RecommendCovers(ps: seq<Product>)
    ensures Keys(Recommend(ps)) == Distinct(CategoriesOf(ps))
    ensures forall i :: 0 <= i < |Recommend(ps)| ==>
              Recommend(ps)[i].value == TopByInventory(InCategory(ps, Recommend(ps)[i].key))
    ensures forall i :: 0 <= i < |Recommend(ps)| ==> 1 <= |Recommend(ps)[i].value| <= Picks
    ensures forall i, x :: 0 <= i < |Recommend(ps)| && x in Recommend(ps)[i].value ==>
              x in ps && x.category == Recommend(ps)[i].key
  {
    GroupByCategoryGroups(ps);
    var groups := GroupByCategory(ps);
    var rec := Recommend(ps);
    assert Keys(rec) == Keys(groups);
    forall i | 0 <= i < |rec|
      ensures 1 <= |rec[i].value| <= Picks
      ensures forall x :: x in rec[i].value ==> x in ps && x.category == rec[i].key
    {
      var c := rec[i].key;
      var items := InCategory(ps, c);
      assert c in Distinct(CategoriesOf(ps));
      var k :| 0 <= k < |ps| && CategoriesOf(ps)[k] == c;
      FilterMembers(ps, HasCategory(c));
      assert ps[k] in items;
      TopByInventoryTaken(items);
      forall x | x in rec[i].value ensures x in ps && x.category == c {
        assert x in multiset(items);
      }
    }
  }
}

=== FILE: seqs.dfy ===
/** Generic sequence operations shared by the catalog views: order-preserving
    filtering, left-fold sums, first-appearance de-duplication and the
    `Array.prototype.slice` index arithmetic. */
module Seqs {

  /** `a` can be obtained from `b` by deleting elements: every element of `a`
      comes from `b`, in the same relative order. */
  ghost predicate IsSubseq<T>(a: seq<T>, b: seq<T>)
    decreases |b|
  {
    a == [] || (b != [] && ((a[0] == b[0] && IsSubseq(a[1..], b[1..])) || IsSubseq(a, b[1..])))
  }

  /** The elements of `s` satisfying `keep`, in their original order
      (`Array.prototype.filter`). */
  function Filter<T(==,!new)>(s: seq<T>, keep: T -> bool): (r: seq<T>)
    ensures |r| <= |s|
    decreases |s|
  {
    if s == [] then []
    else if keep(s[0]) then [s[0]] + Filter(s[1..], keep)
    else Filter(s[1..], keep)
  }

  /** A value is in the result exactly when it is in the input and kept. */
  lemma {:induction false} FilterMembers<T(!new)>(s: seq<T>, keep: T -> bool)
    ensures forall i :: 0 <= i < |Filter(s, keep)| ==> keep(Filter(s, keep)[i])
    ensures forall x :: x in Filter(s, keep) <==> x in s && keep(x)
    decreases |s|
  {
    if s != [] {
      FilterMembers(s[1..], keep);
      assert forall x :: x in s <==> x == s[0] || x in s[1..];
    }
  }

  /** A filter that keeps nothing of `s` is empty. */
  lemma {:induction false} FilterKeepNone<T(!new)>(s: seq<T>, keep: T -> bool)
    requires forall x :: x in s ==> !keep(x)
    ensures Filter(s, keep) == []
    decreases |s|
  {
    if s != [] {
      assert forall x :: x in s[1..] ==> x in s;
      assert s[0] in s;
      FilterKeepNone(s[1..], keep);
    }
  }

  /** A filter's result is a subsequence of its input. */
  lemma {:induction false} FilterIsSubseq<T(!new)>(s: seq<T>, keep: T -> bool)
    ensures IsSubseq(Filter(s, keep), s)
    decreases |s|
  {
    if s != [] {
      FilterIsSubseq(s[1..], keep);
      var r := Filter(s, keep);
      if keep(s[0]) {
        assert r[0] == s[0] && r[1..] == Filter(s[1..], keep);
      }
    }
  }

  /** Filtering keeps every copy of a kept value and no copy of a dropped one. */
  lemma {:induction false} FilterCount<T(!new)>(s: seq<T>, keep: T -> bool)
    ensures forall x :: multiset(Filter(s, keep))[x] == if keep(x) then multiset(s)[x] else 0
    decreases |s|
  {
    if s != [] {
      FilterCount(s[1..], keep);
      assert s == [s[0]] + s[1..];
      assert multiset(s) == multiset{s[0]} + multiset(s[1..]);
    }
  }

  /** Filtering two reorderings of the same elements gives two reorderings
      of the same result. */
  lemma FilterPermutes<T(!new)>(a: seq<T>, b: seq<T>, keep: T -> bool)
    requires multiset(a) == multiset(b)
    ensures multiset(Filter(a, keep)) == multiset(Filter(b, keep))
    ensures |Filter(a, keep)| == |Filter(b, keep)|
  {
    FilterCount(a, keep);
    FilterCount(b, keep);
    assert multiset(Filter(a, keep)) == multiset(Filter(b, keep));
    assert |multiset(Filter(a, keep))| == |Filter(a, keep)|;
    assert |multiset(Filter(b, keep))| == |Filter(b, keep)|;
  }

  lemma {:induction false} FilterConcat<T(!new)>(a: seq<T>, b: seq<T>, keep: T -> bool)
    ensures Filter(a + b, keep) == Filter(a, keep) + Filter(b, keep)
    decreases |a|
  {
    if a == [] {
      assert a + b == b;
    } else {
      assert (a + b)[0] == a[0];
      assert (a + b)[1..] == a[1..] + b;
      FilterConcat(a[1..], b, keep);
      if keep(a[0]) {
        assert Filter(a + b, keep) == [a[0]] + (Filter(a[1..], keep) + Filter(b, keep));
      }
    }
  }

  lemma FilterSnoc<T(!new)>(s: seq<T>, x: T, keep: T -> bool)
    ensures Filter(s + [x], keep) == Filter(s, keep) + (if keep(x) then [x] else [])
  {
    FilterConcat(s, [x], keep);
  }

  /** Two predicates that agree on the elements of `s` select the same elements. */
  lemma {:induction false} FilterAgree<T(!new)>(s: seq<T>, f: T -> bool, g: T -> bool)
    requires forall x :: x in s ==> f(x) == g(x)
    ensures Filter(s, f) == Filter(s, g)
    decreases |s|
  {
    if s != [] {
      assert forall x :: x in s[1..] ==> x in s;
      FilterAgree(s[1..], f, g);
    }
  }

  /** A filter that keeps everything is the identity. */
  lemma {:induction false} FilterKeepAll<T(!new)>(s: seq<T>, keep: T -> bool)
    requires forall x :: x in s ==> keep(x)
    ensures Filter(s, keep) == s
    decreases |s|
  {
    if s != [] {
      assert forall x :: x in s[1..] ==> x in s;
      FilterKeepAll(s[1..], keep);
      assert s == [s[0]] + s[1..];
    }
  }

  /** Filtering twice is filtering once by the conjunction. */
  lemma {:induction false} FilterFilter<T(!new)>(s: seq<T>, f: T -> bool, g: T -> bool, both: T -> bool)
    requires forall x :: x in s ==> both(x) == (f(x) && g(x))
    ensures Filter(Filter(s, f), g) == Filter(s, both)
    decreases |s|
  {
    if s != [] {
      assert forall x :: x in s[1..] ==> x in s;
      FilterFilter(s[1..], f, g, both);
    }
  }

  /** Filtering a prefix gives a prefix of the filtered whole. */
  lemma {:induction false} FilterPrefix<T(!new)>(s: seq<T>, n: nat, keep: T -> bool)
    requires n <= |s|
    ensures Filter(s[..n], keep) <= Filter(s, keep)
    decreases n
  {
    if n > 0 {
      var p := s[..n];
      assert p[0] == s[0];
      assert p[1..] == s[1..][..n - 1];
      FilterPrefix(s[1..], n - 1, keep);
    }
  }

  /** Left-to-right sum of `f` over `s`, as `reduce((acc, x) => acc + f(x), 0)`. */
  function Sum<T>(s: seq<T>, f: T -> int): int
    decreases |s|
  {
    if s == [] then 0 else Sum(s[..|s| - 1], f) + f(s[|s| - 1])
  }

  lemma {:induction false} SumConcat<T>(a: seq<T>, b: seq<T>, f: T -> int)
    ensures Sum(a + b, f) == Sum(a, f) + Sum(b, f)
    decreases |b|
  {
    if b == [] {
      assert a + b == a;
    } else {
      assert (a + b)[..|a + b| - 1] == a + b[..|b| - 1];
      assert (a + b)[|a + b| - 1] == b[|b| - 1];
      SumConcat(a, b[..|b| - 1], f);
    }
  }

  lemma SumCons<T>(x: T, s: seq<T>, f: T -> int)
    ensures Sum([x] + s, f) == f(x) + Sum(s, f)
  {
    SumConcat([x], s, f);
    assert [x][..0] == [];
  }

  /** Replacing one element changes the sum by exactly the difference. */
  lemma SumUpdate<T>(s: seq<T>, i: nat, x: T, f: T -> int)
    requires i < |s|
    ensures Sum(s[i := x], f) == Sum(s, f) - f(s[i]) + f(x)
  {
    assert s == s[..i] + [s[i]] + s[i + 1..];
    assert s[i := x] == s[..i] + [x] + s[i + 1..];
    SumConcat(s[..i] + [s[i]], s[i + 1..], f);
    SumConcat(s[..i] + [x], s[i + 1..], f);
    SumConcat(s[..i], [s[i]], f);
    SumConcat(s[..i], [x], f);
    assert [x][..0] == [];
    assert [s[i]][..0] == [];
  }

  /** Reordering a sequence does not change its sum. */
  lemma {:induction false} SumPermutation<T>(a: seq<T>, b: seq<T>, f: T -> int)
    requires multiset(a) == multiset(b)
    ensures Sum(a, f) == Sum(b, f)
    decreases |a|
  {
    if a != [] {
      var x := a[0];
      assert x in multiset(b);
      var i :| 0 <= i < |b| && b[i] == x;
      var rest := b[..i] + b[i + 1..];
      assert a == [x] + a[1..];
      assert multiset(a[1..]) == multiset(a) - multiset{x};
      RemoveAtCount(b, i);
      RemoveAtSum(b, i, f);
      SumPermutation(a[1..], rest, f);
      SumCons(x, a[1..], f);
    }
  }

  /** Taking out the element at `i` takes one copy out of the multiset. */
  lemma RemoveAtCount<T>(b: seq<T>, i: nat)
    requires i < |b|
    ensures multiset(b[..i] + b[i + 1..]) == multiset(b) - multiset{b[i]}
  {
    assert b == b[..i] + [b[i]] + b[i + 1..];
  }

  /** Taking out the element at `i` takes its value out of the sum. */
  lemma RemoveAtSum<T>(b: seq<T>, i: nat, f: T -> int)
    requires i < |b|
    ensures Sum(b, f) == Sum(b[..i] + b[i + 1..], f) + f(b[i])
  {
    var p, x, q := b[..i], b[i], b[i + 1..];
    assert b == (p + [x]) + q;
    assert (p + [x])[..|p|] == p;
    calc {
      Sum(b, f);
      { SumConcat(p + [x], q, f); }
      Sum(p + [x], f) + Sum(q, f);
      Sum(p, f) + f(x) + Sum(q, f);
      { SumConcat(p, q, f); }
      Sum(p + q, f) + f(x);
    }
  }

  /** Index of the first occurrence of `x` in `xs`. */
  function FirstIndex<T(==,!new)>(xs: seq<T>, x: T): (r: nat)
    requires x in xs
    ensures r < |xs| && xs[r] == x
    ensures forall k :: 0 <= k < r ==> xs[k] != x
    decreases |xs|
  {
    if xs[0] == x then 0 else 1 + FirstIndex(xs[1..], x)
  }

  /** Appending elements does not move a first occurrence. */
  lemma FirstIndexExtend<T(!new)>(xs: seq<T>, ys: seq<T>, x: T)
    requires x in xs
    ensures x in xs + ys && FirstIndex(xs + ys, x) == FirstIndex(xs, x)
  {
    var r1 := FirstIndex(xs + ys, x);
    var r2 := FirstIndex(xs, x);
    assert (xs + ys)[r2] == x;
  }

  /** The distinct values of `xs` in order of first appearance, as the keys
      of a JavaScript object filled by a left-to-right `reduce`. */
  function Distinct<T(==,!new)>(xs: seq<T>): (r: seq<T>)
    ensures forall x :: x in r <==> x in xs
    ensures forall i, j :: 0 <= i < j < |r| ==> r[i] != r[j]
    ensures forall i, j :: 0 <= i < j < |r| ==> FirstIndex(xs, r[i]) < FirstIndex(xs, r[j])
    decreases |xs|
  {
    if xs == [] then []
    else
      var init := xs[..|xs| - 1];
      var last := xs[|xs| - 1];
      assert xs == init + [last];
      var d := Distinct(init);
      FirstIndexEach(init, [last], d);
      if last in d then d
      else
        assert FirstIndex(xs, last) == |init|;
        d + [last]
  }

  /** One more element either repeats a value already seen or adds it last. */
  lemma DistinctSnoc<T(!new)>(xs: seq<T>, x: T)
    ensures Distinct(xs + [x]) == if x in Distinct(xs) then Distinct(xs) else Distinct(xs) + [x]
  {
  }

  lemma FirstIndexEach<T(!new)>(xs: seq<T>, ys: seq<T>, d: seq<T>)
    requires forall x :: x in d ==> x in xs
    ensures forall i :: 0 <= i < |d| ==> d[i] in xs + ys && FirstIndex(xs + ys, d[i]) == FirstIndex(xs, d[i])
  {
    forall i | 0 <= i < |d|
      ensures d[i] in xs + ys && FirstIndex(xs + ys, d[i]) == FirstIndex(xs, d[i])
    {
      FirstIndexExtend(xs, ys, d[i]);
    }
  }

  function Min(a: int, b: int): int { if a <= b then a else b }
  function Max(a: int, b: int): int { if a <= b then b else a }

  /** `Array.prototype.slice(start, end)`: negative positions count from the
      end, positions past either end are clamped, an empty range gives []. */
  function Slice<T>(s: seq<T>, start: int, end: int): (r: seq<T>)
    ensures |r| <= |s|
    ensures start <= end ==> |r| <= end - start
    ensures 0 <= start <= end ==> r == s[Min(start, |s|)..Min(end, |s|)]
  {
    var from := if start < 0 then Max(|s| + start, 0) else Min(start, |s|);
    var to := if end < 0 then Max(|s| + end, 0) else Min(end, |s|);
    if from < to then s[from..to] else []
  }
}

=== FILE: sort.dfy ===
/** A stable sort by an integer key, largest key first: the behaviour of
    `Array.prototype.sort((a, b) => key(b) - key(a))`, which ECMAScript
    requires to be stable. */
module StableSort {
  import opened Seqs

  predicate NonIncreasing<T>(s: seq<T>, key: T -> int) {
    forall i, j :: 0 <= i < j < |s| ==> key(s[i]) >= key(s[j])
  }

  function KeyIs<T>(key: T -> int, k: int): T -> bool {
    x => key(x) == k
  }

  /** The elements whose key is `k`, in their order in `s`. */
  function WithKey<T(==,!new)>(s: seq<T>, key: T -> int, k: int): seq<T> {
    Filter(s, KeyIs(key, k))
  }

  /** Stability: elements with equal keys appear in the same relative order
      in `a` and in `b`. */
  ghost predicate SameTieOrder<T(!new)>(a: seq<T>, b: seq<T>, key: T -> int) {
    forall k :: WithKey(a, key, k) == WithKey(b, key, k)
  }

  lemma WithKeyCons<T(!new)>(x: T, s: seq<T>, key: T -> int, k: int)
    ensures WithKey([x] + s, key, k) == (if key(x) == k then [x] else []) + WithKey(s, key, k)
  {
  }

  /** Inserts `x` in front of the first element whose key does not exceed its own. */
  function Insert<T(==,!new)>(x: T, ys: seq<T>, key: T -> int): (r: seq<T>)
    requires NonIncreasing(ys, key)
    ensures NonIncreasing(r, key)
    ensures |r| == |ys| + 1
    ensures r[0] == x || (ys != [] && r[0] == ys[0])
    decreases |ys|
  {
    if ys == [] || key(ys[0]) <= key(x) then [x] + ys
    else
      var rest := Insert(x, ys[1..], key);
      assert key(ys[0]) >= key(rest[0]);
      [ys[0]] + rest
  }

  lemma {:induction false} InsertPermutes<T(!new)>(x: T, ys: seq<T>, key: T -> int)
    requires NonIncreasing(ys, key)
    ensures multiset(Insert(x, ys, key)) == multiset{x} + multiset(ys)
    decreases |ys|
  {
    if ys != [] && key(ys[0]) > key(x) {
      InsertPermutes(x, ys[1..], key);
      assert ys == [ys[0]] + ys[1..];
    }
  }

  /** `x` lands before every element of `ys` with the same key. */
  lemma {:induction false} InsertTieOrder<T(!new)>(x: T, ys: seq<T>, key: T -> int, k: int)
    requires NonIncreasing(ys, key)
    ensures WithKey(Insert(x, ys, key), key, k) == (if key(x) == k then [x] else []) + WithKey(ys, key, k)
    decreases |ys|
  {
    if ys == [] || key(ys[0]) <= key(x) {
      WithKeyCons(x, ys, key, k);
    } else {
      assert ys == [ys[0]] + ys[1..];
      InsertTieOrder(x, ys[1..], key, k);
      WithKeyCons(ys[0], Insert(x, ys[1..], key), key, k);
      WithKeyCons(ys[0], ys[1..], key, k);
    }
  }

  /** Insertion sort, largest key first, ties in input order. */
  function SortDesc<T(==,!new)>(s: seq<T>, key: T -> int): (r: seq<T>)
    ensures NonIncreasing(r, key)
    ensures |r| == |s|
    decreases |s|
  {
    if s == [] then [] else Insert(s[0], SortDesc(s[1..], key), key)
  }

  lemma {:induction false} SortDescPermutes<T(!new)>(s: seq<T>, key: T -> int)
    ensures multiset(SortDesc(s, key)) == multiset(s)
    decreases |s|
  {
    if s != [] {
      SortDescPermutes(s[1..], key);
      InsertPermutes(s[0], SortDesc(s[1..], key), key);
      assert s == [s[0]] + s[1..];
    }
  }

  lemma {:induction false} SortDescStable<T(!new)>(s: seq<T>, key: T -> int)
    ensures SameTieOrder(SortDesc(s, key), s, key)
    decreases |s|
  {
    if s != [] {
      SortDescStable(s[1..], key);
      assert s == [s[0]] + s[1..];
      forall k ensures WithKey(SortDesc(s, key), key, k) == WithKey(s, key, k) {
        InsertTieOrder(s[0], SortDesc(s[1..], key), key, k);
        WithKeyCons(s[0], s[1..], key, k);
      }
    }
  }

  lemma HeadWithKey<T(!new)>(s: seq<T>, key: T -> int)
    requires s != []
    ensures WithKey(s, key, key(s[0])) != [] && WithKey(s, key, key(s[0]))[0] == s[0]
  {
  }

  lemma TailTieOrder<T(!new)>(a: seq<T>, b: seq<T>, key: T -> int)
    requires a != [] && b != [] && a[0] == b[0]
    requires SameTieOrder(a, b, key)
    ensures SameTieOrder(a[1..], b[1..], key)
  {
    forall k ensures WithKey(a[1..], key, k) == WithKey(b[1..], key, k) {
      assert a == [a[0]] + a[1..] && b == [b[0]] + b[1..];
      WithKeyCons(a[0], a[1..], key, k);
      WithKeyCons(b[0], b[1..], key, k);
      var p := if key(a[0]) == k then [a[0]] else [];
      assert WithKey(a, key, k) == WithKey(b, key, k);
      assert WithKey(a[1..], key, k) == WithKey(a, key, k)[|p|..];
      assert WithKey(b[1..], key, k) == WithKey(b, key, k)[|p|..];
    }
  }

  /** A sequence ordered by key with a prescribed order among equal keys is
      unique: every stable sort of the same input gives SortDesc's result. */
  lemma {:induction false} SortedUnique<T(!new)>(a: seq<T>, b: seq<T>, key: T -> int)
    requires NonIncreasing(a, key) && NonIncreasing(b, key)
    requires SameTieOrder(a, b, key)
    ensures a == b
    decreases |a|
  {
    if a != [] && b != [] {
      var m := key(a[0]);
      var n := key(b[0]);
      HeadWithKey(a, key);
      HeadWithKey(b, key);
      FilterMembers(a, KeyIs(key, n));
      FilterMembers(b, KeyIs(key, m));
      assert a[0] in WithKey(b, key, m);
      assert b[0] in WithKey(a, key, n);
      assert m == n;
      assert a[0] == b[0];
      TailTieOrder(a, b, key);
      SortedUnique(a[1..], b[1..], key);
      assert a == [a[0]] + a[1..] && b == [b[0]] + b[1..];
    } else if a != [] {
      HeadWithKey(a, key);
    } else if b != [] {
      HeadWithKey(b, key);
    }
  }

  /** In a sequence ordered by key, an element left outside a prefix has a
      key no larger than any element of the prefix. */
  lemma PrefixDominates<T(!new)>(s: seq<T>, m: nat, key: T -> int, y: T)
    requires NonIncreasing(s, key)
    requires m <= |s|
    requires multiset(s[..m])[y] < multiset(s)[y]
    ensures forall i :: 0 <= i < m ==> key(s[i]) >= key(y)
  {
    var rest := s[m..];
    assert s == s[..m] + rest;
    assert multiset(s)[y] == multiset(s[..m])[y] + multiset(rest)[y];
    assert y in rest;
    var j :| 0 <= j < |rest| && rest[j] == y;
    assert s[m + j] == y;
  }
}

=== FILE: storefront.dfy ===
/** The storefront's searchable product list: category buttons, the
    category-and-query filter, fixed-size pages and the page controls. */
module Storefront {
  import opened Seqs
  import opened Text
  import opened Catalog

  const ItemsPerPage: nat := 8

  /** The category button that turns category filtering off. */
  const AllCategories := "all"

  /** The category buttons: the sentinel, then every category once, ascending. */
  function CategoryButtons(initial: seq<Product>): (r: seq<string>)
    ensures |r| >= 1 && r[0] == AllCategories
    ensures StrictlyAscending(r[1..])
    ensures forall c :: c in r[1..] <==> c in CategoriesOf(initial)
  {
    [AllCategories] + SortedDistinct(CategoriesOf(initial))
  }

  /** Whether the storefront lists `p` for the typed query and the chosen
      category button. */
  predicate Listed(p: Product, query: string, category: string) {
    (category == AllCategories || p.category == category) && MatchesQuery(p, Lower(Trim(query)))
  }

  function ListedBy(query: string, category: string): Product -> bool {
    p => Listed(p, query, category)
  }

  function Matching(q: string): Product -> bool {
    p => MatchesQuery(p, q)
  }

  /** The list shown before paging. The category filter runs first and the
      query filter only when the trimmed query is non-empty; the result is
      nevertheless a single filter by `Listed`. */
  function FilterProducts(initial: seq<Product>, query: string, category: string): (r: seq<Product>)
    ensures r == Filter(initial, ListedBy(query, category))
    ensures IsSubseq(r, initial)
    ensures forall p :: p in r <==> p in initial && Listed(p, query, category)
    ensures category == AllCategories && Trim(query) == [] ==> r == initial
  {
    var byCategory := if category != AllCategories then InCategory(initial, category) else initial;
    var q := Lower(Trim(query));
    var r := if q != [] then Filter(byCategory, Matching(q)) else byCategory;
    FilterSteps(initial, query, category);
    FilterIsSubseq(initial, ListedBy(query, category));
    FilterMembers(initial, ListedBy(query, category));
    r
  }

  lemma FilterSteps(initial: seq<Product>, query: string, category: string)
    ensures var byCategory := if category != AllCategories then InCategory(initial, category) else initial;
            var q := Lower(Trim(query));
            (if q != [] then Filter(byCategory, Matching(q)) else byCategory) == Filter(initial, ListedBy(query, category))
  {
    var q := Lower(Trim(query));
    var listed := ListedBy(query, category);
    forall p ensures MatchesQuery(p, []) {
      EmptyQueryMatches(p);
    }
    if category != AllCategories {
      if q != [] {
        FilterFilter(initial, HasCategory(category), Matching(q), listed);
      } else {
        FilterAgree(initial, HasCategory(category), listed);
      }
    } else {
      if q != [] {
        FilterAgree(initial, Matching(q), listed);
      } else {
        FilterKeepAll(initial, listed);
      }
    }
  }

  /** Queries that differ only in letter case list the same products. */
  lemma QueryIgnoresCase(initial: seq<Product>, q1: string, q2: string, category: string)
    requires Lower(q1) == Lower(q2)
    ensures FilterProducts(initial, q1, category) == FilterProducts(initial, q2, category)
  {
    LowerTrim(q1);
    LowerTrim(q2);
    FilterAgree(initial, ListedBy(q1, category), ListedBy(q2, category));
  }

  /** `Math.ceil(n / ItemsPerPage)`. */
  function TotalPages(n: nat): (r: nat)
    ensures r * ItemsPerPage >= n
    ensures r == 0 || (r - 1) * ItemsPerPage < n
    ensures r == 0 <==> n == 0
  {
    (n + ItemsPerPage - 1) / ItemsPerPage
  }

  /** The products on page `page` (counted from 1): `slice(start, start + 8)`. */
  function PageItems(filtered: seq<Product>, page: int): (r: seq<Product>)
    ensures |r| <= ItemsPerPage
    ensures page > TotalPages(|filtered|) ==> r == []
    ensures 1 <= page <= TotalPages(|filtered|) ==> r != []
  {
    var start := (page - 1) * ItemsPerPage;
    Slice(filtered, start, start + ItemsPerPage)
  }

  /** Pages 1 to `k`, concatenated. */
  function PagesThrough(filtered: seq<Product>, k: nat): seq<Product> {
    if k == 0 then [] else PagesThrough(filtered, k - 1) + PageItems(filtered, k)
  }

  lemma {:induction false} PagesThroughPrefix(filtered: seq<Product>, k: nat)
    ensures PagesThrough(filtered, k) == filtered[..Min(k * ItemsPerPage, |filtered|)]
  {
    if k > 0 {
      PagesThroughPrefix(filtered, k - 1);
      var lo := Min((k - 1) * ItemsPerPage, |filtered|);
      var hi := Min(k * ItemsPerPage, |filtered|);
      assert PageItems(filtered, k) == filtered[lo..hi];
      assert filtered[..hi] == filtered[..lo] + filtered[lo..hi];
    }
  }

  /** Pages 1 to TotalPages, in order, give back the filtered list with no
      gap and no overlap. */
  lemma PagesReassemble(filtered: seq<Product>)
    ensures PagesThrough(filtered, TotalPages(|filtered|)) == filtered
  {
    PagesThroughPrefix(filtered, TotalPages(|filtered|));
  }

  /** "Previous": `Math.max(1, p - 1)`. */
  function PrevPage(p: int): (r: int)
    ensures r >= 1
    ensures p > 1 ==> r == p - 1
    ensures p <= 1 ==> r == 1
  {
    Max(1, p - 1)
  }

  /** "Next": `Math.min(totalPages, p + 1)`. */
  function NextPage(p: int, total: int): (r: int)
    ensures r <= total
    ensures p < total ==> r == p + 1
    ensures p >= total ==> r == total
    ensures 1 <= p <= total ==> 1 <= r
  {
    Min(total, p + 1)
  }

  /** What the list component remembers between renders. */
  datatype Browse = Browse(query: string, category: string, page: int)

  function Start(): Browse {
    Browse("", AllCategories, 1)
  }

  function Filtered(initial: seq<Product>, b: Browse): seq<Product> {
    FilterProducts(initial, b.query, b.category)
  }

  function PageCount(initial: seq<Product>, b: Browse): nat {
    TotalPages(|Filtered(initial, b)|)
  }

  function Shown(initial: seq<Product>, b: Browse): seq<Product> {
    PageItems(Filtered(initial, b), b.page)
  }

  /** The current page is page 1 or one of the pages that exist. */
  predicate PageInRange(initial: seq<Product>, b: Browse) {
    b.page == 1 || 1 <= b.page <= PageCount(initial, b)
  }

  /** Typing in the search box; the effect keyed on the query sends the
      list back to page 1 whenever the query changes. */
  function SetQuery(b: Browse, q: string): (r: Browse)
    ensures r.query == q && r.category == b.category
    ensures q != b.query ==> r.page == 1
    ensures q == b.query ==> r == b
  {
    if q == b.query then b else Browse(q, b.category, 1)
  }

  /** Clicking a category button; it too resets the page when it changes the
      category. */
  function SetCategory(b: Browse, c: string): (r: Browse)
    ensures r.query == b.query && r.category == c
    ensures c != b.category ==> r.page == 1
    ensures c == b.category ==> r == b
  {
    if c == b.category then b else Browse(b.query, c, 1)
  }

  /** The paging controls exist only when there is more than one page. */
  function ClickPrev(initial: seq<Product>, b: Browse): (r: Browse)
    ensures r.query == b.query && r.category == b.category
    ensures PageCount(initial, b) <= 1 ==> r == b
    ensures r == b || r.page >= 1
    ensures PageCount(initial, b) > 1 && b.page > 1 ==> r.page == b.page - 1
    ensures PageCount(initial, b) > 1 && b.page <= 1 ==> r.page == 1
  {
    if PageCount(initial, b) > 1 then b.(page := PrevPage(b.page)) else b
  }

  function ClickNext(initial: seq<Product>, b: Browse): (r: Browse)
    ensures r.query == b.query && r.category == b.category
    ensures PageCount(initial, b) <= 1 ==> r == b
    ensures r.page <= PageCount(initial, b) || r == b
    ensures 1 <= b.page < PageCount(initial, b) ==> r.page == b.page + 1
    ensures PageCount(initial, b) > 1 && b.page >= PageCount(initial, b) ==> r.page == PageCount(initial, b)
  {
    if PageCount(initial, b) > 1 then b.(page := NextPage(b.page, PageCount(initial, b))) else b
  }

  function ClickPage(initial: seq<Product>, b: Browse, k: int): (r: Browse)
    ensures r.query == b.query && r.category == b.category
    ensures PageCount(initial, b) <= 1 ==> r == b
    ensures r == b || 1 <= r.page <= PageCount(initial, b)
    ensures PageCount(initial, b) > 1 && 1 <= k <= PageCount(initial, b) ==> r.page == k
  {
    if PageCount(initial, b) > 1 && 1 <= k <= PageCount(initial, b) then b.(page := k) else b
  }

  /** Every control keeps the current page within range, starting from the
      initial state. */
  lemma BrowseKeepsPageInRange(initial: seq<Product>, b: Browse, q: string, c: string, k: int)
    requires PageInRange(initial, b)
    ensures PageInRange(initial, Start())
    ensures PageInRange(initial, SetQuery(b, q))
    ensures PageInRange(initial, SetCategory(b, c))
    ensures PageInRange(initial, ClickPrev(initial, b))
    ensures PageInRange(initial, ClickNext(initial, b))
    ensures PageInRange(initial, ClickPage(initial, b, k))
  {
  }

  /** In range, a non-empty result always shows a non-empty page. */
  lemma InRangePageNotEmpty(initial: seq<Product>, b: Browse)
    requires PageInRange(initial, b)
    requires Filtered(initial, b) != []
    ensures Shown(initial, b) != []
  {
  }

  /** Searching "tool" lists a "tools" product through its category even
      though its name does not contain the word. */
  lemma ToolSearchScenario()
    ensures var widget := Product(1, "Widget", "widget", "", 10, "tools", 3, 0);
            FilterProducts([widget], "tool", AllCategories) == [widget]
  {
    var widget := Product(1, "Widget", "widget", "", 10, "tools", 3, 0);
    assert Trim("tool") == "tool";
    assert Lower("tool") == "tool";
    assert Lower("tools") == "tools";
    assert Contains(Lower(widget.category), "tool");
    assert Listed(widget, "tool", AllCategories);
  }
}

=== FILE: text.dfy ===
/** String operations the catalog relies on, restricted to ASCII: lowercasing
    (`toLowerCase`), whitespace trimming (`trim`), substring search
    (`includes`), whitespace-run replacement (`replace(/\s+/g, "-")`) and the
    default `Array.prototype.sort` order on strings. */
module Text {

  /** The ASCII characters matched by `\s` and removed by `trim`. */
  predicate IsSpace(c: char) {
    c == ' ' || c == '\t' || c == '\n' || c == '\r' || c == '\U{0B}' || c == '\U{0C}'
  }

  predicate IsUpper(c: char) { 'A' <= c <= 'Z' }

  function ToLower(c: char): (r: char)
    ensures !IsUpper(r)
    ensures IsSpace(r) == IsSpace(c)
    ensures !IsUpper(c) ==> r == c
  {
    if IsUpper(c) then (c as int + 32) as char else c
  }

  function Lower(s: string): (r: string)
    ensures |r| == |s|
    ensures forall i :: 0 <= i < |s| ==> r[i] == ToLower(s[i])
  {
    seq(|s|, i requires 0 <= i < |s| => ToLower(s[i]))
  }

  predicate NoSpace(s: string) {
    forall i :: 0 <= i < |s| ==> !IsSpace(s[i])
  }

  predicate AllSpace(s: string) {
    forall i :: 0 <= i < |s| ==> IsSpace(s[i])
  }

  /** `q` occurs in `s` starting at position `i`. */
  ghost predicate OccursAt(s: string, q: string, i: int) {
    0 <= i && i + |q| <= |s| && s[i..i + |q|] == q
  }

  /** `s.includes(q)`. */
  predicate Contains(s: string, q: string)
    decreases |s|
  {
    (|q| <= |s| && s[..|q|] == q) || (s != [] && Contains(s[1..], q))
  }

  /** `includes` holds exactly when the query occurs at some position. */
  lemma {:induction false} ContainsIffOccurs(s: string, q: string)
    ensures Contains(s, q) <==> exists i :: OccursAt(s, q, i)
    decreases |s|
  {
    if |q| <= |s| && s[..|q|] == q {
      assert OccursAt(s, q, 0);
    } else if s != [] {
      ContainsIffOccurs(s[1..], q);
      if Contains(s[1..], q) {
        var i :| OccursAt(s[1..], q, i);
        assert s[1..][i..i + |q|] == s[i + 1..i + 1 + |q|];
        assert OccursAt(s, q, i + 1);
      } else {
        forall i ensures !OccursAt(s, q, i) {
          if 0 < i && i + |q| <= |s| {
            assert s[1..][i - 1..i - 1 + |q|] == s[i..i + |q|];
            assert !OccursAt(s[1..], q, i - 1);
          } else if i == 0 && |q| <= |s| {
            assert s[0..|q|] == s[..|q|];
          }
        }
      }
    } else {
      forall i ensures !OccursAt(s, q, i) {
      }
    }
  }

  /** `trimStart`: drops the leading whitespace. */
  function TrimStart(s: string): (r: string)
    ensures |r| <= |s|
    ensures r == [] || !IsSpace(r[0])
    ensures s != [] && IsSpace(s[0]) ==> |r| < |s|
    decreases |s|
  {
    if s != [] && IsSpace(s[0]) then TrimStart(s[1..]) else s
  }

  /** `trimStart` removes a whitespace prefix and nothing else. */
  lemma {:induction false} TrimStartRemovesSpace(s: string)
    ensures TrimStart(s) == s[|s| - |TrimStart(s)|..]
    ensures AllSpace(s[..|s| - |TrimStart(s)|])
    decreases |s|
  {
    if s != [] && IsSpace(s[0]) {
      TrimStartRemovesSpace(s[1..]);
      var k := |s| - |TrimStart(s)|;
      assert s[1..][..k - 1] == s[1..k];
    }
  }

  /** `trimEnd`: drops the trailing whitespace. */
  function TrimEnd(s: string): (r: string)
    ensures |r| <= |s|
    ensures r == [] || !IsSpace(r[|r| - 1])
    decreases |s|
  {
    if s != [] && IsSpace(s[|s| - 1]) then TrimEnd(s[..|s| - 1]) else s
  }

  /** `trimEnd` removes a whitespace suffix and nothing else. */
  lemma {:induction false} TrimEndRemovesSpace(s: string)
    ensures TrimEnd(s) == s[..|TrimEnd(s)|]
    ensures AllSpace(s[|TrimEnd(s)|..])
    decreases |s|
  {
    if s != [] && IsSpace(s[|s| - 1]) {
      TrimEndRemovesSpace(s[..|s| - 1]);
      var k := |TrimEnd(s)|;
      assert s[..|s| - 1][k..] == s[k..|s| - 1];
    }
  }

  /** `trim`: drops whitespace at both ends. */
  function Trim(s: string): (r: string)
    ensures r == [] || (!IsSpace(r[0]) && !IsSpace(r[|r| - 1]))
    ensures exists i :: OccursAt(s, r, i) && AllSpace(s[..i]) && AllSpace(s[i + |r|..])
  {
    var t := TrimStart(s);
    var r := TrimEnd(t);
    TrimStartRemovesSpace(s);
    TrimEndRemovesSpace(t);
    var i := |s| - |t|;
    assert r == s[i..i + |r|];
    assert s[i + |r|..] == t[|r|..];
    assert OccursAt(s, r, i);
    r
  }

  lemma {:induction false} LowerTrimStart(s: string)
    ensures Lower(TrimStart(s)) == TrimStart(Lower(s))
    decreases |s|
  {
    if s != [] && IsSpace(s[0]) {
      assert Lower(s)[1..] == Lower(s[1..]);
      LowerTrimStart(s[1..]);
    }
  }

  lemma {:induction false} LowerTrimEnd(s: string)
    ensures Lower(TrimEnd(s)) == TrimEnd(Lower(s))
    decreases |s|
  {
    if s != [] && IsSpace(s[|s| - 1]) {
      assert Lower(s)[..|s| - 1] == Lower(s[..|s| - 1]);
      LowerTrimEnd(s[..|s| - 1]);
    }
  }

  /** Lowercasing and trimming commute: letter case never affects what `trim`
      removes. */
  lemma LowerTrim(s: string)
    ensures Lower(Trim(s)) == Trim(Lower(s))
  {
    LowerTrimStart(s);
    LowerTrimEnd(TrimStart(s));
  }

  /** `replace(/\s+/g, "-")`: every maximal run of whitespace becomes one `-`. */
  function Hyphenate(s: string): (r: string)
    ensures NoSpace(r)
    ensures |r| <= |s|
    decreases |s|
  {
    if s == [] then []
    else if IsSpace(s[0]) then
      var t := TrimStart(s);
      var rest := Hyphenate(t);
      ['-'] + rest
    else
      [s[0]] + Hyphenate(s[1..])
  }

  /** Text without whitespace is left as it is. */
  lemma {:induction false} HyphenateWord(s: string)
    requires NoSpace(s)
    ensures Hyphenate(s) == s
    decreases |s|
  {
    if s != [] {
      HyphenateWord(s[1..]);
      assert s == [s[0]] + s[1..];
    }
  }

  predicate NoUpper(s: string) {
    forall i :: 0 <= i < |s| ==> !IsUpper(s[i])
  }

  /** Hyphenating lowercase text gives lowercase text. */
  lemma {:induction false} HyphenateKeepsLower(s: string)
    requires NoUpper(s)
    ensures NoUpper(Hyphenate(s))
    decreases |s|
  {
    if s != [] {
      if IsSpace(s[0]) {
        var t := TrimStart(s);
        TrimStartRemovesSpace(s);
        assert forall i :: 0 <= i < |t| ==> t[i] == s[|s| - |t| + i];
        HyphenateKeepsLower(t);
      } else {
        HyphenateKeepsLower(s[1..]);
      }
    }
  }

  lemma TrimStartRun(run: string, b: string)
    requires AllSpace(run)
    requires b == [] || !IsSpace(b[0])
    ensures TrimStart(run + b) == b
    decreases |run|
  {
    if run != [] {
      assert (run + b)[1..] == run[1..] + b;
      TrimStartRun(run[1..], b);
    } else {
      assert run + b == b;
    }
  }

  /** Text ending in a non-space character keeps that character, and
      whatever follows it, through `trimStart`. */
  lemma {:induction false} TrimStartKeepsTail(a: string, x: string)
    requires a != [] && !IsSpace(a[|a| - 1])
    ensures TrimStart(a) != [] && !IsSpace(TrimStart(a)[|TrimStart(a)| - 1])
    ensures TrimStart(a + x) == TrimStart(a) + x
    decreases |a|
  {
    if IsSpace(a[0]) {
      assert |a| > 1;
      assert (a + x)[1..] == a[1..] + x;
      TrimStartKeepsTail(a[1..], x);
    }
  }

  /** A whitespace run between two words becomes exactly one `-`, and the
      words on either side are rewritten independently. Together with
      HyphenateWord this pins down the replacement completely. */
  lemma {:induction false} HyphenateJoin(a: string, run: string, b: string)
    requires a == [] || !IsSpace(a[|a| - 1])
    requires run != [] && AllSpace(run)
    requires b == [] || !IsSpace(b[0])
    ensures Hyphenate(a + run + b) == Hyphenate(a) + "-" + Hyphenate(b)
    decreases |a|, 1
  {
    if a == [] {
      var s := run + b;
      assert a + run + b == s;
      TrimStartRun(run, b);
      HyphenateSpaceHead(s);
    } else if IsSpace(a[0]) {
      HyphenateJoinSpace(a, run, b);
    } else {
      HyphenateJoinChar(a, run, b);
    }
  }

  lemma {:induction false} HyphenateJoinSpace(a: string, run: string, b: string)
    requires a != [] && IsSpace(a[0]) && !IsSpace(a[|a| - 1])
    requires run != [] && AllSpace(run)
    requires b == [] || !IsSpace(b[0])
    ensures Hyphenate(a + run + b) == Hyphenate(a) + "-" + Hyphenate(b)
    decreases |a|, 0
  {
    var t := TrimStart(a);
    TrimStartKeepsTail(a, run + b);
    JoinSpaceHead(a, t, run, b);
    HyphenateJoin(t, run, b);
    Regroup("-", Hyphenate(a + run + b), Hyphenate(t + run + b), Hyphenate(t), Hyphenate(b), Hyphenate(a));
  }

  lemma {:induction false} HyphenateJoinChar(a: string, run: string, b: string)
    requires a != [] && !IsSpace(a[0]) && !IsSpace(a[|a| - 1])
    requires run != [] && AllSpace(run)
    requires b == [] || !IsSpace(b[0])
    ensures Hyphenate(a + run + b) == Hyphenate(a) + "-" + Hyphenate(b)
    decreases |a|, 0
  {
    JoinCharHead(a, run, b);
    HyphenateJoin(a[1..], run, b);
    Regroup([a[0]], Hyphenate(a + run + b), Hyphenate(a[1..] + run + b), Hyphenate(a[1..]), Hyphenate(b), Hyphenate(a));
  }

  /** The step both cases of HyphenateJoin end with: a common head put in
      front of the joined rest. */
  lemma Regroup(head: string, x: string, y: string, z: string, w: string, u: string)
    requires x == head + y && y == z + "-" + w && u == head + z
    ensures x == u + "-" + w
  {
  }

  lemma JoinSpaceHead(a: string, t: string, run: string, b: string)
    requires a != [] && IsSpace(a[0])
    requires t == TrimStart(a) && TrimStart(a + (run + b)) == t + (run + b)
    ensures Hyphenate(a + run + b) == "-" + Hyphenate(t + run + b)
    ensures Hyphenate(a) == "-" + Hyphenate(t)
  {
    assert a + run + b == a + (run + b);
    assert t + (run + b) == t + run + b;
    HyphenateSpaceHead(a + run + b);
    HyphenateSpaceHead(a);
  }

  lemma JoinCharHead(a: string, run: string, b: string)
    requires a != [] && !IsSpace(a[0])
    ensures Hyphenate(a + run + b) == [a[0]] + Hyphenate(a[1..] + run + b)
    ensures Hyphenate(a) == [a[0]] + Hyphenate(a[1..])
  {
    assert a + run + b == [a[0]] + (a[1..] + run + b);
    assert a == [a[0]] + a[1..];
    HyphenateCharHead(a[0], a[1..] + run + b);
    HyphenateCharHead(a[0], a[1..]);
  }

  lemma HyphenateSpaceHead(s: string)
    requires s != [] && IsSpace(s[0])
    ensures Hyphenate(s) == "-" + Hyphenate(TrimStart(s))
  {
  }

  lemma HyphenateCharHead(c: char, s: string)
    requires !IsSpace(c)
    ensures Hyphenate([c] + s) == [c] + Hyphenate(s)
  {
  }

  /** The string order of the default `Array.prototype.sort`: lexicographic
      by character code, a proper prefix first. */
  predicate Less(a: string, b: string)
    decreases |a|
  {
    if b == [] then false
    else if a == [] then true
    else if a[0] != b[0] then a[0] < b[0]
    else Less(a[1..], b[1..])
  }

  lemma {:induction false} LessIrreflexive(a: string)
    ensures !Less(a, a)
    decreases |a|
  {
    if a != [] {
      LessIrreflexive(a[1..]);
    }
  }

  lemma {:induction false} LessTransitive(a: string, b: string, c: string)
    requires Less(a, b) && Less(b, c)
    ensures Less(a, c)
    decreases |a|
  {
    if a != [] && a[0] == b[0] && b[0] == c[0] {
      LessTransitive(a[1..], b[1..], c[1..]);
    }
  }

  lemma {:induction false} LessTotal(a: string, b: string)
    requires a != b
    ensures Less(a, b) || Less(b, a)
    decreases |a|
  {
    if a != [] && b != [] && a[0] == b[0] {
      assert a == [a[0]] + a[1..] && b == [b[0]] + b[1..];
      LessTotal(a[1..], b[1..]);
    }
  }

  lemma {:induction false} LessAsymmetric(a: string, b: string)
    requires Less(a, b)
    ensures !Less(b, a)
    decreases |a|
  {
    if a != [] && a[0] == b[0] {
      LessAsymmetric(a[1..], b[1..]);
    }
  }

  predicate StrictlyAscending(xs: seq<string>) {
    forall i, j :: 0 <= i < j < |xs| ==> Less(xs[i], xs[j])
  }

  /** Inserts `c` into an ascending list unless it is already there. */
  function InsertSorted(xs: seq<string>, c: string): (r: seq<string>)
    requires StrictlyAscending(xs)
    ensures StrictlyAscending(r)
    ensures forall x :: x in r <==> x in xs || x == c
    decreases |xs|
  {
    if xs == [] then [c]
    else if c == xs[0] then xs
    else if Less(c, xs[0]) then
      forall j | 0 < j < |xs| ensures Less(c, xs[j]) {
        LessTransitive(c, xs[0], xs[j]);
      }
      [c] + xs
    else
      LessTotal(c, xs[0]);
      var rest := InsertSorted(xs[1..], c);
      assert forall x :: x in rest ==> x == c || x in xs[1..];
      forall j | 0 <= j < |rest| ensures Less(xs[0], rest[j]) {
        assert rest[j] in rest;
        if rest[j] != c {
          var k :| 0 <= k < |xs[1..]| && xs[1..][k] == rest[j];
          assert xs[k + 1] == rest[j];
        }
      }
      [xs[0]] + rest
  }

  /** `Array.from(new Set(xs)).sort()`: the distinct values, ascending. */
  function SortedDistinct(xs: seq<string>): (r: seq<string>)
    ensures StrictlyAscending(r)
    ensures forall x :: x in r <==> x in xs
    decreases |xs|
  {
    if xs == [] then [] else InsertSorted(SortedDistinct(xs[..|xs| - 1]), xs[|xs| - 1])
  }

  /** A strictly ascending list is determined by its elements; so any correct
      sort of the distinct values yields exactly SortedDistinct. */
  lemma {:induction false} AscendingUnique(a: seq<string>, b: seq<string>)
    requires StrictlyAscending(a) && StrictlyAscending(b)
    requires forall x :: x in a <==> x in b
    ensures a == b
    decreases |a|
  {
    if a != [] {
      assert a[0] in b;
      assert b != [] && b[0] in a;
      if a[0] != b[0] {
        var i :| 0 <= i < |b| && b[i] == a[0];
        var j :| 0 <= j < |a| && a[j] == b[0];
        assert Less(b[0], a[0]) && Less(a[0], b[0]);
        LessAsymmetric(b[0], a[0]);
      }
      forall x ensures x in a[1..] <==> x in b[1..] {
        if x in a[1..] {
          var k :| 1 <= k < |a| && a[k] == x;
          LessIrreflexiveAt(a, k);
          assert x in b && x != b[0];
          var m :| 0 <= m < |b| && b[m] == x;
          assert b[1..][m - 1] == x;
        }
        if x in b[1..] {
          var k :| 1 <= k < |b| && b[k] == x;
          LessIrreflexiveAt(b, k);
          assert x in a && x != a[0];
          var m :| 0 <= m < |a| && a[m] == x;
          assert a[1..][m - 1] == x;
        }
      }
      AscendingUnique(a[1..], b[1..]);
    } else if b != [] {
      HeadIn(b);
    }
  }

  lemma HeadIn(b: seq<string>)
    requires b != []
    ensures b[0] in b
  {
  }

  /** In a strictly ascending list no later element repeats the first. */
  lemma LessIrreflexiveAt(a: seq<string>, k: int)
    requires StrictlyAscending(a) && 0 < k < |a|
    ensures a[k] != a[0]
  {
    LessIrreflexive(a[0]);
  }
}

=== FILE: wishlist.dfy ===
/** The wishlist button: the stored list of product identifiers and the
    button's own "saved" flag. */
module Wishlist {
  import opened Seqs

  function Other(id: string): string -> bool {
    s => s != id
  }

  /** `store.includes(id) ? store.filter((s) => s !== id) : [...store, id]`:
      a saved id loses every copy while the rest keeps its order and
      multiplicity; an unsaved id is appended after the unchanged list. */
  function Toggle(store: seq<string>, id: string): (r: seq<string>)
    ensures id in store ==> id !in r && IsSubseq(r, store)
    ensures id in store ==> forall x :: x != id ==> multiset(r)[x] == multiset(store)[x]
    ensures id !in store ==> |r| == |store| + 1 && r[..|store|] == store && r[|store|] == id
  {
    if id in store then
      FilterMembers(store, Other(id));
      FilterCount(store, Other(id));
      FilterIsSubseq(store, Other(id));
      Filter(store, Other(id))
    else store + [id]
  }

  /** Toggling flips whether `id` is saved and leaves every other entry, and
      its number of copies, as it was. */
  lemma ToggleFlips(store: seq<string>, id: string)
    ensures id in Toggle(store, id) <==> id !in store
    ensures forall x :: x != id ==> multiset(Toggle(store, id))[x] == multiset(store)[x]
    ensures id in store ==> IsSubseq(Toggle(store, id), store)
  {
    FilterMembers(store, Other(id));
    FilterCount(store, Other(id));
    FilterIsSubseq(store, Other(id));
  }

  /** Saving and then removing gives the list back. */
  lemma ToggleTwiceFromAbsent(store: seq<string>, id: string)
    requires id !in store
    ensures Toggle(Toggle(store, id), id) == store
  {
    var s := store + [id];
    assert id in s;
    FilterSnoc(store, id, Other(id));
    FilterKeepAll(store, Other(id));
    assert Filter(store, Other(id)) + [] == store;
  }

  /** Removing and then saving again moves the entry to the end and drops
      any duplicate copies. */
  lemma ToggleTwiceFromPresent(store: seq<string>, id: string)
    requires id in store
    ensures Toggle(Toggle(store, id), id) == Filter(store, Other(id)) + [id]
  {
    FilterMembers(store, Other(id));
  }

  /** The button's state: whether it shows "In Wishlist". */
  datatype Button = Button(id: string, saved: bool)

  /** On mount the flag is read from the store. */
  function Mount(store: seq<string>, id: string): (b: Button)
    ensures b.id == id
    ensures b.saved <==> id in store
  {
    Button(id, id in store)
  }

  /** A click toggles the store and negates the flag it had, without
      re-reading the store. */
  function Click(store: seq<string>, b: Button): (r: (seq<string>, Button))
    ensures r.0 == Toggle(store, b.id)
    ensures r.1 == Button(b.id, !b.saved)
  {
    (Toggle(store, b.id), Button(b.id, !b.saved))
  }

  /** While the flag agrees with the store, clicks keep it agreeing. */
  lemma ClickKeepsFlagInSync(store: seq<string>, b: Button)
    requires b.saved <==> b.id in store
    ensures var (next, nb) := Click(store, b);
            nb.saved <==> nb.id in next
  {
    ToggleFlips(store, b.id);
  }

  /** Once the store has changed behind the button's back, the flag shows the
      opposite of the store after the click. */
  lemma ClickKeepsStaleFlagStale(store: seq<string>, b: Button)
    requires b.saved <==> b.id !in store
    ensures var (next, nb) := Click(store, b);
            nb.saved <==> nb.id !in next
  {
    ToggleFlips(store, b.id);
  }
}
